=== FILE: README.md ===
# Segmentation data loader: sampling, sizing and labelling

A Dafny model of the integer and sequence logic of `dataset.py` in the
semantic-segmentation training code. It covers how the loader:

- chooses and applies a label converter (ADE shift, Cityscapes table, identity);
- subsets the manifest list;
- groups records into tall and wide aspect buckets to form a sub-batch;
- computes per-sample scaled sizes, the padded batch canvas and the label canvas;
- pads a label map before downsampling it;
- builds the archive paths of a training record.

Randomness is passed in as parameters. The first shuffle is a function of
the requested index. Each reshuffle is a function of the list and of how
many reshuffles came before. The chosen short size is an argument. Pixels,
tensors and files are not modelled.

Modules, one per file:

- `Labels` (labels.dfy): converter selection and the three converters.
- `Manifest` (manifest.dfy): records and `parse_input_list` subsetting.
- `Sampler` (sampler.dfy): the `_get_sub_batch` state machine and the lazy first shuffle.
- `Sizes` (sizes.dfy): round-up, scale, scaled size, target sizes, canvas, label padding.
- `TrainBatch` (train_batch.dfy): the shape of one training batch and one `__getitem__` request.
- `ArchivePaths` (archive_paths.dfy): `lstrip`, `split('/')`/`join` and the two archive path forms.
- `Wrappers` (wrappers.dfy): `Result`, for the error paths.

Raw Cityscapes ids outside -1..33 are returned unchanged, since no mask
of lines 39-40 selects them (`Labels.CityscapesValue`).

## Model

| member | source | states |
|---|---|---|
| Sizes.RoundUp | dataset.py:117-119 | the result is a multiple of `p` and lies in `[x, x + p)`, for every integer `x`, including zero and negative values |
| Sizes.RoundUpIsLeast | dataset.py:117-119 | no multiple of `p` that is at least `x` is smaller than the result: it is the nearest multiple from above |
| Sizes.RoundUpOfZero | dataset.py:117-119 | rounding 0 up gives 0 |
| Sizes.RoundUpIdempotent | dataset.py:117-119 | rounding an already rounded value changes nothing |
| Sizes.RoundUpMonotone | dataset.py:117-119 | rounding up preserves order |
| Sizes.Scale | dataset.py:185-187 | the scale never lets the short edge exceed the short size or the long edge exceed the maximum size, and one of the two limits is met exactly |
| Sizes.FloorMul | dataset.py:188-189 | the truncation of `dim * scale` is the floor of the exact product |
| Sizes.ScaledSize | dataset.py:184-189 | each scaled edge is the floor of the edge times the exact scale |
| Sizes.ScaledSizeBounds | dataset.py:184-189 | the scaled short edge is at most the short size, the scaled long edge is at most `imgMaxSize`, and one of them reaches its limit |
| Sizes.FloorMulMonotone | dataset.py:188-189 | scaling keeps the order of the edges, so the short edge stays the short edge |
| Sizes.TargetSize | dataset.py:296-302 | each validation target edge is a multiple of the padding constant and lies within one padding step above the scaled edge |
| Sizes.TargetSizes | dataset.py:339-347 | one target size per configured short size, in the configured order |
| Sizes.MaxOf | dataset.py:192-193 | the largest extent is one of the extents and bounds all of them |
| Sizes.CanvasSide | dataset.py:191-195 | a canvas side is a multiple of the padding constant, holds every sample, and is the least such multiple |
| Sizes.PadToMultiple | dataset.py:235-238 | the padded label has sides rounded up to the rate, the original pixels in the top-left corner and zeros everywhere else |
| Sizes.DownsampledExtent | dataset.py:239-243 | the downsampled label side is the padded side divided by the rate, which is the ceiling of side / rate |
| Sizes.DownsampledFitsWhenRateDividesPadding | dataset.py:234-243 | when the rate divides the padding constant, the downsampled label fits the label canvas of any canvas that holds the sample |
| Labels.SelectScheme | dataset.py:43-48 | Cityscapes exactly when the lower-cased name contains "cityscapes"; ADE exactly when it contains "ade" but not "cityscapes"; identity otherwise |
| Labels.SelectSchemeIgnoresCase | dataset.py:43-48 | a name and its lower-cased form select the same converter |
| Labels.CityscapesInAnyCaseWins | dataset.py:43-44 | any spelling of "cityscapes" in the name selects the Cityscapes table, even if "ade" is present too |
| Labels.AdeInAnyCase | dataset.py:45-46 | any spelling of "ade" selects the ADE shift unless "cityscapes" is present |
| Labels.AdeValue | dataset.py:17-19 | the ADE converter decrements every value |
| Labels.AdeRange | dataset.py:17-19 | ADE values 0..150 land in -1..149, and only raw 0 becomes the ignore label |
| Labels.CityscapesValue | dataset.py:21-41 | every raw id of the table lands in -1..18, every other value comes back unchanged, and each train id 0..18 comes from the one raw id the inverse table names, so no two classes merge |
| Labels.CityscapesRawIdsHit | dataset.py:24-36 | every train id 0..18 is reached by the table |
| Labels.Convert | dataset.py:11-48 | the selected converter works value by value over the whole label map; `Labels.ConvertCityscapesInPlace` shows the source loop computes it |
| Labels.ConvertCityscapesInPlace | dataset.py:38-41 | masked assignments whose masks compare against the saved copy give each output from its original value alone, with no chaining through the table |
| Labels.TrainLabelTransform | dataset.py:249-254 | the label transform of the training loader equals the converter selected for the same manifest name |
| Manifest.Slice | dataset.py:90-92 | Python slicing: clamped bounds, empty when inverted, entries taken in order |
| Manifest.Subset | dataset.py:83-95 | the kept list is the contiguous run of the input between the capped and clamped bounds, in its original order; it fails exactly when that run is empty |
| Manifest.SubsetSize | dataset.py:89-95 | the kept list holds at least one and at most `max_sample` and `end_idx - start_idx` records |
| Manifest.SubsetDefaults | dataset.py:83-95 | with the default options the whole list is kept, and only an empty manifest fails |
| Manifest.SplitCoversList | dataset.py:91-92 | two `[start:end]` ranges split at `k` together give back the list |
| Sampler.Talls | dataset.py:142-143 | the first bucket only receives records with height greater than width |
| Sampler.Wides | dataset.py:144-145 | the second bucket only receives square or wide records |
| Sampler.BucketsPartition | dataset.py:142-145 | every record lands in exactly one bucket: nothing lost, nothing duplicated |
| Sampler.Reshuffled | dataset.py:149-151 | a reshuffle is a permutation of the list |
| Sampler.Initial | dataset.py:131-135 | a fresh loader holds the manifest list in its own order, not yet shuffled, with its cursor at 0 and two empty buckets |
| Sampler.Step | dataset.py:141-151 | the record under the cursor joins the bucket of its orientation; the cursor advances and wraps to 0 exactly when it reaches the end; a wrap replaces the list by one reshuffle of it, otherwise the list is unchanged; the list is only ever permuted |
| Sampler.ReachedBucketsStep | dataset.py:141-145 | a step appends the record under the cursor to the bucket of its orientation |
| Sampler.Drain | dataset.py:153-160 | the first bucket is tested first; the bucket returned has exactly `batch_per_gpu` records and is emptied, while the other bucket, the cursor and the list are untouched |
| Sampler.GetSubBatch | dataset.py:138-161 | (`Sampler.SubBatch`) the batch has `batch_per_gpu` records of one orientation; it is the bucket that filled, grown by the records read, and is emptied, while the other bucket keeps its records and stays below `batch_per_gpu`; the batch ends with the last record read; the list is only permuted, and unchanged when no wrap happened; records read within a pass are the next list entries; the cursor ends at the start cursor plus the number of records read, modulo the list length, and the epoch counter grows by the number of wraps; after a wrap, the records read since it are the first entries of the new list, and after exactly one wrap that list is the reshuffle of the starting list for the starting epoch |
| Sampler.Begin | dataset.py:165-168 | the first request shuffles the list by a permutation and sets the flag; later requests leave the state unchanged |
| Sampler.BeginOnce | dataset.py:163-168 | the list is shuffled on the first request only, whatever index later requests carry |
| TrainBatch.ComputeShape | dataset.py:179-243 | each sample gets its record's scaled size; each canvas side is the largest sample side rounded up to the padding constant; the label canvas is canvas // rate; each label size is its sample size padded to the rate and downsampled |
| TrainBatch.SampleSizes | dataset.py:181-189 | each batch slot gets the scaled size of its own record |
| TrainBatch.FirstBad | dataset.py:206-257 | the copy loop stops at the first sample whose resize or label copy fails: every earlier sample passes, and the one found fails |
| TrainBatch.CopyLoop | dataset.py:206-257 | the copy loop succeeds exactly when every sample has positive scaled edges and every label fits; otherwise the error names the cause at the first failing sample |
| TrainBatch.LayoutAsWritten | dataset.py:197-257 | the assertion rejects exactly a padding constant below the rate; past it the request succeeds exactly when every sample can be resized and every label fits, with the computed shape |
| TrainBatch.GuardAdmitsOverflow | dataset.py:197-198 | padding constant 3 and rate 2 pass the assertion, yet a 3x3 sample's label does not fit the label canvas |
| TrainBatch.ThinSampleIsNotResizable | dataset.py:184-189 | a 1x30 record with short size 3 and maximum size 10 scales to height 0, and the request fails at its resize |
| TrainBatch.LabelsFitWhenRateDivides | dataset.py:234-257 | when the rate divides the padding constant, every downsampled label fits its slot of the label canvas |
| TrainBatch.Layout | dataset.py:197-257 | with the rate dividing the padding constant as the guard, the guard fails exactly when it does not divide; a layout exists exactly when it divides and every sample can be resized, and then every downsampled label fits the label canvas |
| TrainBatch.LayoutAgreesWhenRateDivides | dataset.py:197-204 | when the corrected guard passes, the layout as written and the corrected layout are the same |
| TrainBatch.AcceptedShape | dataset.py:179-257 | an accepted shape has canvases that are multiples of the padding constant and hold every resized sample, each with positive edges, and every label |
| TrainBatch.AcceptedWhenRateDivides | dataset.py:197-257 | with the rate dividing the padding constant, only a zero-sized resize can stop the request |
| TrainBatch.DrawBatch | dataset.py:163-171 | the records and the next state are exactly one `_get_sub_batch` call (`Sampler.SubBatch`, including the cursor, epoch and reshuffle facts after a wrap) on the state after the lazy first shuffle; the list stays a permutation of the original and every record drawn has a size |
| TrainBatch.GetItem | dataset.py:163-257 | the records and the next state are one `_get_sub_batch` call (`Sampler.SubBatch`, including the cursor, epoch and reshuffle facts after a wrap) on the state after the lazy first shuffle; the shape is the one the code as written computes for those records (`TrainBatch.RequestShape`): the assertion fails exactly on a padding constant below the rate, an accepted shape holds every label and every sample at its record's scaled size, and with the rate dividing the padding constant only a zero-sized resize can fail |
| ArchivePaths.LStrip | dataset.py:210-211 | `lstrip` removes the longest leading run of characters from the set and no more |
| ArchivePaths.LStripPrefix | dataset.py:210-211 | a prefix made only of stripped characters disappears whatever follows it |
| ArchivePaths.AdeArchivePath | dataset.py:210-211 | the archive name and root come first; what follows is a suffix of the manifest path, all that was cut off is made of the root's characters, and the suffix does not start with one |
| ArchivePaths.AdePathOfUsualManifest | dataset.py:210-211 | for "ADEChallengeData2016/..." stripping removes exactly that directory name |
| ArchivePaths.LStripIsNotPrefixRemoval | dataset.py:210-211 | "Data/x.png" loses "Data" too, since the argument of `lstrip` is a set of characters |
| ArchivePaths.Split | dataset.py:214 | `split('/')` gives at least one piece and no piece holds a slash |
| ArchivePaths.Join | dataset.py:214 | the join starts with the first piece, followed by a slash when there are more |
| ArchivePaths.JoinSplit | dataset.py:214 | joining the pieces of a split gives back the string |
| ArchivePaths.SplitJoin | dataset.py:214 | splitting a join of slash-free pieces gives back the pieces |
| ArchivePaths.CityscapesArchivePath | dataset.py:212-216 | the archive name comes first; with at most two components nothing follows it, otherwise what follows splits into exactly the components from the third on |
| ArchivePaths.CityscapesDropsTwoComponents | dataset.py:212-216 | the Cityscapes form of "a/b/rest" is the archive name followed by exactly "rest" |
| ArchivePaths.TrainPaths | dataset.py:210-216 | the paths take the Cityscapes form exactly when the Cityscapes converter is selected for the manifest, and the ADE form otherwise |

## Left out

- Image and label reading, colour conversion and the zip archive reader: foreign calls on pixel data. Only the path strings are modelled.
- Pixel interpolation by `cv2.resize` and `imresize`, the random flip, normalisation and `img_transform`: floating-point work on pixel values. The resized label is modelled by its size only. The third positional argument of `cv2.resize` at lines 231-232 and 239-243 is, in OpenCV's Python signature, the destination array and not the interpolation flag. The model does not depend on which interpolation runs.
- Random numbers: the first shuffle, the reshuffles and the choice of short size are parameters. The first shuffle is a function of the index, standing for `np.random.seed(index)`.
- Tensor allocation and the copies into `batch_images` and `batch_segms`. The copy of line 257 is modelled only by whether the label fits its slot. The resize of line 231 is modelled only by whether its target size is empty: OpenCV rejects a target with a zero edge when no scale factors are given, and the model reads it so (`TrainBatch.CopyLoop`).
- The `print` calls, and the fake length of `TrainDataset.__len__`.
- `ValDataset.__getitem__` beyond its target sizes: the `elif` at line 279 has no `if`, and `self.segm_transform` at line 313 does not exist. `imresize` refers to `PIL.Image`, which is never imported. None of this code can run as written.
- Sizes.Scale: the scale is an exact rational, not a 64-bit float, so float rounding of `dim * scale` just below an integer is not modelled.
- TrainBatch.SampleSizes: the `int32` storage of `batch_widths` and `batch_heights` is not modelled. Every size is at most `imgMaxSize`, so no wrap-around is expected.
- Sampler.GetSubBatch: requires `batch_per_gpu >= 1`. With 0 the source returns an empty batch after one record, since the bucket that did not receive it still has length 0. `__getitem__` then fails at the maximum of its empty size arrays (line 192).
- Sampler.Reshuffled: an answer of the shuffle parameter that is not a permutation leaves the list unchanged. The model does not give `np.random.shuffle` any other meaning.
- Sampler.Valid: the cursor bound only. Bucket orientation is the separate `Sampler.Sorted`.
- TrainBatch.ValidConfig: asks for a padding constant and a downsampling rate of at least 1. With a rate of 0 the source passes the assertion of line 197 and then divides by zero at line 203; with a padding constant of 0 it divides by zero in `round2nearest_multiple`. It also asks that every entry of `imgSizes` and `imgMaxSize` be nonnegative: with a negative size the scale is negative, the int32 batch sizes go negative, and `torch.zeros` raises at line 199. None of these errors is modelled.
- Sampler.Begin: accepts any integer index as the seed. `np.random.seed` rejects a seed outside `[0, 2**32)`, and `__len__` advertises 10^10 indices (line 265), so the source can fail there; the model does not give that error.
- TrainBatch.GetItem: requires that every record has a positive height and width (`Manifest.Measurable`), as the scale divides by them. It also requires that the buckets hold fewer than `batch_per_gpu` records, which every earlier request leaves true. The short size must be an entry of `imgSizes` (`short in cfg.imgSizes`), so an empty `imgSizes` is excluded; there `np.random.choice` raises ValueError at line 175, and that error is not modelled.
- Labels.Lower: lower-cases ASCII letters only, where Python's `str.lower` also folds other Unicode letters.
- For a Cityscapes manifest the source first computes the ADE paths and then overwrites them. The model gives only the paths that are kept (`ArchivePaths.TrainPaths`).
- Sizes.TargetSize: a zero target edge is returned as is. The resize of the validation and test loaders that would reject it is not modelled.
- The JSON parsing of manifest lines is not modelled. A record is given by its two paths, its height and its width.

## Findings

| source | as written | input that shows it | evidently intended | confidence | as-written member | corrected member |
|---|---|---|---|---|---|---|
| dataset.py:197-198, 257 | the guard only checks `padding_constant >= segm_downsampling_rate` | padding constant 3, rate 2, one 3x3 sample, short size 3, max size 3: canvas 3x3, label canvas 1x1, label padded to 4x4 and downsampled to 2x2, which does not fit | the rate divides the padding constant, so every downsampled label fits its slot of the label canvas | medium, not executed | TrainBatch.LayoutAsWritten, TrainBatch.GuardAdmitsOverflow | TrainBatch.Layout |

=== FILE: archive_paths.dfy ===
/** Archive path strings of `TrainDataset.__getitem__`: the ADE
    form strips leading characters with `str.lstrip`, the Cityscapes form
    drops the first two `/`-separated components of the manifest path. */
module ArchivePaths {
  import Labels

  /** `str.lstrip(chars)`: drop the longest prefix made only of characters
      from `chars` (a set of characters, not a literal prefix). */
  function LStrip(s: string, chars: set<char>): (r: string)
    ensures |r| <= |s| && r == s[|s| - |r|..]
    ensures forall i :: 0 <= i < |s| - |r| ==> s[i] in chars
    ensures |r| > 0 ==> r[0] !in chars
  {
    if |s| > 0 && s[0] in chars then
      var r := LStrip(s[1..], chars);
      assert forall i :: 1 <= i < |s| - |r| ==> s[i] == s[1..][i - 1];
      r
    else s
  }

  lemma {:induction false} LStripPrefix(prefix: string, rest: string, chars: set<char>)
    requires forall i :: 0 <= i < |prefix| ==> prefix[i] in chars
    ensures LStrip(prefix + rest, chars) == LStrip(rest, chars)
  {
    if |prefix| > 0 {
      assert (prefix + rest)[1..] == prefix[1..] + rest;
      LStripPrefix(prefix[1..], rest, chars);
    } else {
      assert prefix + rest == rest;
    }
  }

  lemma LStripStops(s: string, chars: set<char>)
    requires |s| > 0 && s[0] !in chars
    ensures LStrip(s, chars) == s
  {
  }

  const AdeRoot: string := "ADEChallengeData2016"

  /** The characters of "ADEChallengeData2016", the argument of `lstrip`. */
  const AdeChars: set<char> := {'A', 'D', 'E', 'C', 'h', 'a', 'l', 'e', 'n', 'g', 't', '2', '0', '1', '6'}

  lemma SlashIsNotAdeChar()
    ensures '/' !in AdeChars
  {
  }

  lemma AdeCharsAreTheRootsCharacters()
    ensures forall i :: 0 <= i < |AdeRoot| ==> AdeRoot[i] in AdeChars
    ensures forall c :: c in AdeChars ==> c in AdeRoot
  {
  }

  /** Archive name and root that replace the stripped prefix in the ADE form. */
  const AdeArchive: string := "ADEChallengeData2016.zip@/ADEChallengeData2016"

  /** ADE form: the manifest path with its leading run of characters from
      "ADEChallengeData2016" replaced by the archive name and its root. What
      follows the archive is a suffix of the manifest path; everything cut
      off is made of those characters, and the suffix does not start with one. */
  function AdeArchivePath(root: string, fpath: string): (r: string)
    ensures |r| >= |root| + |AdeArchive| && r[..|root| + |AdeArchive|] == root + AdeArchive
    ensures var t := r[|root| + |AdeArchive|..];
            && |t| <= |fpath| && t == fpath[|fpath| - |t|..]
            && (forall i :: 0 <= i < |fpath| - |t| ==> fpath[i] in AdeChars)
            && (|t| > 0 ==> t[0] !in AdeChars)
  {
    var t := LStrip(fpath, AdeChars);
    var r := root + AdeArchive + t;
    assert r[|root| + |AdeArchive|..] == t;
    r
  }

  /** For the manifest's usual form "ADEChallengeData2016/...", stripping
      removes exactly the literal prefix, since '/' is not among its
      characters. */
  lemma AdePathOfUsualManifest(root: string, rest: string)
    requires |rest| > 0 && rest[0] == '/'
    ensures AdeArchivePath(root, AdeRoot + rest) == root + AdeArchive + rest
  {
    SlashIsNotAdeChar();
    LStripStops(rest, AdeChars);
    AdeCharsAreTheRootsCharacters();
    LStripPrefix(AdeRoot, rest, AdeChars);
  }

  /** Stripping works on characters, not on the prefix: a path that merely
      starts with letters of "ADEChallengeData2016" loses them too. */
  lemma LStripIsNotPrefixRemoval()
    ensures LStrip("Data/x.png", AdeChars) == "/x.png"
  {
    var prefix, rest := "Data", "/x.png";
    assert "Data/x.png" == prefix + rest;
    assert forall i :: 0 <= i < |prefix| ==> prefix[i] in AdeChars;
    LStripPrefix(prefix, rest, AdeChars);
    SlashIsNotAdeChar();
    LStripStops(rest, AdeChars);
  }

  // ---------------------------------------------------------------------
  // `str.split('/')` and `'/'.join(...)`

  /** `s.split('/')`: the pieces between slashes; always at least one. */
  function Split(s: string): (parts: seq<string>)
    ensures |parts| >= 1
    ensures forall k :: 0 <= k < |parts| ==> '/' !in parts[k]
  {
    if |s| == 0 then [""]
    else
      var rest := Split(s[1..]);
      if s[0] == '/' then [""] + rest
      else [[s[0]] + rest[0]] + rest[1..]
  }

  /** `'/'.join(parts)`. */
  function Join(parts: seq<string>): (r: string)
    ensures |parts| >= 1 ==> |r| >= |parts[0]| && r[..|parts[0]|] == parts[0]
    ensures |parts| >= 2 ==> |r| > |parts[0]| && r[|parts[0]|] == '/'
  {
    if |parts| == 0 then ""
    else if |parts| == 1 then parts[0]
    else parts[0] + "/" + Join(parts[1..])
  }

  lemma JoinCons(x: string, y: string, rest: seq<string>)
    ensures Join([x + y] + rest) == x + Join([y] + rest)
  {
    if |rest| > 0 {
      assert ([x + y] + rest)[1..] == rest;
      assert ([y] + rest)[1..] == rest;
    }
  }

  /** Joining the pieces of a split gives back the string. */
  lemma {:induction false} JoinSplit(s: string)
    ensures Join(Split(s)) == s
  {
    if |s| > 0 {
      var rest := Split(s[1..]);
      JoinSplit(s[1..]);
      if s[0] == '/' {
        assert ([""] + rest)[1..] == rest;
      } else {
        assert [rest[0]] + rest[1..] == rest;
        JoinCons([s[0]], rest[0], rest[1..]);
      }
      assert s == [s[0]] + s[1..];
    }
  }

  /** A piece without slashes followed by a slash splits off as one piece. */
  lemma {:induction false} SplitCons(a: string, t: string)
    requires '/' !in a
    ensures Split(a + "/" + t) == [a] + Split(t)
  {
    if |a| > 0 {
      assert (a + "/" + t)[1..] == a[1..] + "/" + t;
      SplitCons(a[1..], t);
      assert [a[0]] + a[1..] == a;
    } else {
      assert a + "/" + t == "/" + t;
      assert ("/" + t)[1..] == t;
    }
  }

  lemma {:induction false} SplitPiece(a: string)
    requires '/' !in a
    ensures Split(a) == [a]
  {
    if |a| > 0 {
      SplitPiece(a[1..]);
      assert [a[0]] + a[1..] == a;
    }
  }

  /** Splitting a join of slash-free pieces gives back the pieces. */
  lemma {:induction false} SplitJoin(parts: seq<string>)
    requires |parts| >= 1
    requires forall k :: 0 <= k < |parts| ==> '/' !in parts[k]
    ensures Split(Join(parts)) == parts
  {
    if |parts| == 1 {
      SplitPiece(parts[0]);
    } else {
      SplitJoin(parts[1..]);
      SplitCons(parts[0], Join(parts[1..]));
      assert [parts[0]] + parts[1..] == parts;
    }
  }

  lemma SplitJoinWhenNonEmpty(parts: seq<string>)
    requires forall k :: 0 <= k < |parts| ==> '/' !in parts[k]
    ensures |parts| >= 1 ==> Split(Join(parts)) == parts
  {
    if |parts| >= 1 {
      SplitJoin(parts);
    }
  }

  /** Cityscapes form: the archive name, then the manifest path without its
      first two components. With at most two components nothing follows the
      archive; otherwise what follows splits into exactly the remaining
      components. */
  function CityscapesArchivePath(root: string, archive: string, fpath: string): (r: string)
    ensures |r| >= |root| + |archive| && r[..|root| + |archive|] == root + archive
    ensures |Split(fpath)| <= 2 ==> r == root + archive
    ensures |Split(fpath)| > 2 ==> Split(r[|root| + |archive|..]) == Split(fpath)[2..]
  {
    var parts := Split(fpath);
    var kept := if |parts| >= 2 then parts[2..] else [];
    var r := root + archive + Join(kept);
    assert r[|root| + |archive|..] == Join(kept);
    SplitJoinWhenNonEmpty(kept);
    r
  }

  const CityscapesImageArchive: string := "leftImg8bit_trainvaltest.zip@/leftImg8bit/"
  const CityscapesLabelArchive: string := "gtFine_trainvaltest.zip@/gtFine/"

  /** For a manifest path "a/b/rest" the Cityscapes form keeps exactly "rest". */
  lemma CityscapesDropsTwoComponents(root: string, archive: string, a: string, b: string, rest: string)
    requires '/' !in a && '/' !in b
    ensures CityscapesArchivePath(root, archive, a + "/" + b + "/" + rest) == root + archive + rest
  {
    SplitCons(a, b + "/" + rest);
    SplitCons(b, rest);
    assert a + "/" + b + "/" + rest == a + "/" + (b + "/" + rest);
    assert Split(a + "/" + b + "/" + rest)[2..] == Split(rest);
    JoinSplit(rest);
  }

  /** The image and label paths of one training record. The Cityscapes
      form is used exactly when the Cityscapes converter is selected for the
      manifest, and the ADE form otherwise. */
  function TrainPaths(root: string, manifest: string, imagePath: string, labelPath: string): (r: (string, string))
    ensures Labels.SelectScheme(manifest) == Labels.Cityscapes ==>
              r == (CityscapesArchivePath(root, CityscapesImageArchive, imagePath),
                    CityscapesArchivePath(root, CityscapesLabelArchive, labelPath))
    ensures Labels.SelectScheme(manifest) != Labels.Cityscapes ==>
              r == (AdeArchivePath(root, imagePath), AdeArchivePath(root, labelPath))
  {
    if Labels.Contains(Labels.Lower(manifest), "cityscapes") then
      (CityscapesArchivePath(root, CityscapesImageArchive, imagePath),
       CityscapesArchivePath(root, CityscapesLabelArchive, labelPath))
    else
      (AdeArchivePath(root, imagePath), AdeArchivePath(root, labelPath))
  }
}

=== FILE: labels.dfy ===
/** Label conversion of the segmentation dataset: the ADE shift, the fixed
    Cityscapes table, the identity fallback, and the choice between them by
    a case-insensitive substring test on the manifest name. */
module Labels {

  /** The value a converter writes for pixels that the loss ignores. */
  const Ignore: int := -1

  datatype Scheme = Cityscapes | Ade | Identity

  // ---------------------------------------------------------------------
  // Case-insensitive substring matching (ASCII letters only)

  function LowerChar(c: char): char {
    if 'A' <= c <= 'Z' then (c as int - 'A' as int + 'a' as int) as char else c
  }

  /** `str.lower()` restricted to ASCII letters. */
  function Lower(s: string): (r: string)
    ensures |r| == |s|
    ensures forall i :: 0 <= i < |s| ==> r[i] == LowerChar(s[i])
  {
    seq(|s|, i requires 0 <= i < |s| => LowerChar(s[i]))
  }

  predicate OccursAt(s: string, t: string, i: int) {
    0 <= i <= |s| - |t| && s[i..i + |t|] == t
  }

  /** Python's `t in s` for strings. */
  predicate Contains(s: string, t: string) {
    exists i | 0 <= i <= |s| - |t| :: OccursAt(s, t, i)
  }

  lemma LowerIdempotent(s: string)
    ensures Lower(Lower(s)) == Lower(s)
  {
  }

  lemma LowerSlice(s: string, i: int, j: int)
    requires 0 <= i <= j <= |s|
    ensures Lower(s)[i..j] == Lower(s[i..j])
  {
  }

  /** An occurrence of `t` in `s` is an occurrence of `Lower(t)` in `Lower(s)`. */
  lemma ContainsLower(s: string, t: string)
    requires Contains(s, t)
    ensures Contains(Lower(s), Lower(t))
  {
    var i :| 0 <= i <= |s| - |t| && OccursAt(s, t, i);
    LowerSlice(s, i, i + |t|);
    assert OccursAt(Lower(s), Lower(t), i);
  }

  /** `get_convert_label_fn`: `cityscapes` is looked for before `ade`; anything
      else falls back to identity. */
  function SelectScheme(manifest: string): (r: Scheme)
    ensures r == Cityscapes <==> Contains(Lower(manifest), "cityscapes")
    ensures r == Ade <==> !Contains(Lower(manifest), "cityscapes") && Contains(Lower(manifest), "ade")
  {
    var name := Lower(manifest);
    if Contains(name, "cityscapes") then Cityscapes
    else if Contains(name, "ade") then Ade
    else Identity
  }

  /** Selection ignores letter case: a name and its lower-cased form select
      the same converter. */
  lemma SelectSchemeIgnoresCase(manifest: string)
    ensures SelectScheme(Lower(manifest)) == SelectScheme(manifest)
  {
    LowerIdempotent(manifest);
  }

  /** Any spelling of "cityscapes" in the name selects the Cityscapes table,
      whatever else the name contains (in particular "ade"). */
  lemma CityscapesInAnyCaseWins(manifest: string, spelling: string)
    requires Lower(spelling) == "cityscapes"
    requires Contains(manifest, spelling)
    ensures SelectScheme(manifest) == Cityscapes
  {
    ContainsLower(manifest, spelling);
  }

  /** Any spelling of "ade" selects the ADE shift unless "cityscapes" is present. */
  lemma AdeInAnyCase(manifest: string, spelling: string)
    requires Lower(spelling) == "ade"
    requires Contains(manifest, spelling)
    requires !Contains(Lower(manifest), "cityscapes")
    ensures SelectScheme(manifest) == Ade
  {
    ContainsLower(manifest, spelling);
  }

  // ---------------------------------------------------------------------
  // The three converters, pointwise on label values

  /** `convert_ade_label`: every value is decremented. */
  function AdeValue(v: int): (r: int)
    ensures r + 1 == v
  {
    v - 1
  }

  lemma AdeRange(v: int)
    requires 0 <= v <= 150
    ensures -1 <= AdeValue(v) <= 149
    ensures AdeValue(v) == Ignore <==> v == 0
  {
  }

  /** Train ids of the Cityscapes table: entry `k + 1` holds the value written
      for raw id `k`, for the 35 raw ids -1..33 that the table lists. */
  const CityscapesTrainIds: seq<int> := [
    Ignore, Ignore,                  // -1, 0
    Ignore, Ignore, Ignore, Ignore,  // 1..4
    Ignore, Ignore,                  // 5, 6
    0, 1, Ignore,                    // 7, 8, 9
    Ignore, 2, 3,                    // 10, 11, 12
    4, Ignore, Ignore,               // 13, 14, 15
    Ignore, 5, Ignore,               // 16, 17, 18
    6, 7, 8, 9, 10, 11,              // 19..24
    12, 13, 14, 15,                  // 25..28
    Ignore, Ignore,                  // 29, 30
    16, 17, 18                       // 31, 32, 33
  ]

  predicate InCityscapesTable(raw: int) {
    -1 <= raw <= 33
  }

  /** Raw id of each train id 0..18 (the inverse of the table on its
      non-ignored entries). */
  const CityscapesRawIds: seq<int> := [7, 8, 11, 12, 13, 17, 19, 20, 21, 22, 23, 24, 25, 26, 27, 28, 31, 32, 33]

  /** `convert_cityscapes_label` on one value: the table entry of the raw id,
      or the raw id itself when the table has no entry for it. Every raw id
      of the table lands in -1..18, and each train id 0..18 comes from the
      one raw id the inverse table names, so no two classes are merged. */
  function CityscapesValue(raw: int): (r: int)
    ensures InCityscapesTable(raw) ==> -1 <= r <= 18
    ensures !InCityscapesTable(raw) ==> r == raw
    ensures InCityscapesTable(raw) && r != Ignore ==> 0 <= r < 19 && CityscapesRawIds[r] == raw
  {
    if InCityscapesTable(raw) then
      TrainIdsInRange(raw + 1);
      TrainIdsInverse(raw + 1);
      CityscapesTrainIds[raw + 1]
    else raw
  }

  lemma TrainIdsInRange(j: int)
    requires 0 <= j < 35
    ensures |CityscapesTrainIds| == 35 && -1 <= CityscapesTrainIds[j] <= 18
  {
    assert forall k :: 0 <= k < 35 ==> -1 <= CityscapesTrainIds[k] <= 18;
  }

  lemma TrainIdsInverse(j: int)
    requires 0 <= j < 35
    ensures |CityscapesTrainIds| == 35
    ensures CityscapesTrainIds[j] != Ignore ==>
              0 <= CityscapesTrainIds[j] < 19 && CityscapesRawIds[CityscapesTrainIds[j]] == j - 1
  {
    assert forall k :: 0 <= k < 35 && CityscapesTrainIds[k] != Ignore ==>
             0 <= CityscapesTrainIds[k] < 19 && CityscapesRawIds[CityscapesTrainIds[k]] == k - 1;
  }

  lemma CityscapesRawIdsHit(c: int)
    requires 0 <= c < 19
    ensures InCityscapesTable(CityscapesRawIds[c]) && CityscapesValue(CityscapesRawIds[c]) == c
  {
    assert forall j :: 0 <= j < 19 ==>
             InCityscapesTable(CityscapesRawIds[j]) && CityscapesTrainIds[CityscapesRawIds[j] + 1] == j;
  }

  function ConvertValue(scheme: Scheme, v: int): int {
    match scheme
    case Cityscapes => CityscapesValue(v)
    case Ade => AdeValue(v)
    case Identity => v
  }

  /** The converter returned by `get_convert_label_fn`, on a flattened label map. */
  function Convert(scheme: Scheme, segm: seq<int>): (r: seq<int>)
    ensures |r| == |segm|
    ensures forall i :: 0 <= i < |segm| ==> r[i] == ConvertValue(scheme, segm[i])
  {
    seq(|segm|, i requires 0 <= i < |segm| => ConvertValue(scheme, segm[i]))
  }

  /** `convert_cityscapes_label` as the source runs it: one masked assignment
      per table key, every mask computed on the saved copy `temp` of the
      input, never on the partly converted output. */
  method ConvertCityscapesInPlace(segm: seq<int>) returns (out: seq<int>)
    ensures |out| == |segm|
    ensures forall i :: 0 <= i < |segm| ==> out[i] == CityscapesValue(segm[i])
  {
    var temp := segm;
    out := segm;
    for k := -1 to 34
      invariant |out| == |temp|
      invariant forall i :: 0 <= i < |temp| ==>
                  out[i] == if -1 <= temp[i] < k then CityscapesTrainIds[temp[i] + 1] else temp[i]
    {
      var v := CityscapesTrainIds[k + 1];
      out := seq(|out|, i requires 0 <= i < |out| => if temp[i] == k then v else out[i]);
    }
  }

  /** The label transform of `TrainDataset.__getitem__` re-derives the
      converter from the manifest name instead of calling the selected one:
      the ADE branch subtracts one directly and an unrecognised name leaves
      the label as is. It agrees with the converter that
      `get_convert_label_fn` selects for the same name. */
  function TrainLabelTransform(manifest: string, segm: seq<int>): (r: seq<int>)
    ensures r == Convert(SelectScheme(manifest), segm)
  {
    if Contains(Lower(manifest), "cityscapes") then Convert(SelectScheme(manifest), segm)
    else if Contains(Lower(manifest), "ade") then seq(|segm|, i requires 0 <= i < |segm| => segm[i] - 1)
    else segm
  }
}

=== FILE: manifest.dfy ===
/** Sample records and the subsetting of the manifest list done by
    `BaseDataset.parse_input_list`. */
module Manifest {
  import opened Wrappers

  /** One manifest line. */
  datatype Record = Record(imagePath: string, labelPath: string, height: int, width: int)

  /** Every record has a positive height and width, as image sizes do. */
  predicate Measurable(records: seq<Record>) {
    forall i :: 0 <= i < |records| ==> records[i].height >= 1 && records[i].width >= 1
  }

  datatype ManifestError = EmptySampleList

  function Clamp(i: int, n: int): (r: int)
    requires i >= 0 && n >= 0
    ensures 0 <= r <= n && (r == i || r == n)
  {
    if i < n then i else n
  }

  /** Python's `s[lo:hi]` for nonnegative bounds: both bounds are clamped to
      the length, and an inverted range is empty. */
  function Slice<T>(s: seq<T>, lo: int, hi: int): (r: seq<T>)
    requires lo >= 0 && hi >= 0
    ensures |r| == if Clamp(hi, |s|) <= Clamp(lo, |s|) then 0 else Clamp(hi, |s|) - Clamp(lo, |s|)
    ensures forall i :: 0 <= i < |r| ==> r[i] == s[Clamp(lo, |s|) + i]
  {
    var a, b := Clamp(lo, |s|), Clamp(hi, |s|);
    if b <= a then [] else s[a..b]
  }

  /** Where the kept list starts in the input: at `start` when the slice
      applies (clamped to the capped length), otherwise at 0. */
  function KeptStart(n: int, maxSample: int, start: int, end: int): int
    requires n >= 0
  {
    var capped := if maxSample > 0 then Clamp(maxSample, n) else n;
    if start >= 0 && end >= 0 then Clamp(start, capped) else 0
  }

  /** Where the kept list ends in the input: the cap of `maxSample`, then
      `end` when the slice applies; never before the start. */
  function KeptEnd(n: int, maxSample: int, start: int, end: int): int
    requires n >= 0
  {
    var capped := if maxSample > 0 then Clamp(maxSample, n) else n;
    var hi := if start >= 0 && end >= 0 then Clamp(end, capped) else capped;
    if hi < KeptStart(n, maxSample, start, end) then KeptStart(n, maxSample, start, end) else hi
  }

  /** The list kept by `parse_input_list`: the first `maxSample` entries when
      `maxSample > 0`, then the slice `[start:end]` when both indices are
      nonnegative; an empty list is an error (the `assert num_sample > 0`).
      The kept list is the contiguous run of the input between the bounds
      above, in its original order. */
  function Subset<T>(list: seq<T>, maxSample: int, start: int, end: int): (r: Result<seq<T>, ManifestError>)
    ensures 0 <= KeptStart(|list|, maxSample, start, end) <= KeptEnd(|list|, maxSample, start, end) <= |list|
    ensures r.Success? <==> KeptStart(|list|, maxSample, start, end) < KeptEnd(|list|, maxSample, start, end)
    ensures r.Success? ==> r.value == list[KeptStart(|list|, maxSample, start, end)..KeptEnd(|list|, maxSample, start, end)]
  {
    var kept := Window(list, maxSample, start, end);
    var capped := if maxSample > 0 then Slice(list, 0, maxSample) else list;
    assert capped == list[..|capped|];
    if |kept| > 0 then Success(kept) else Failure(EmptySampleList)
  }

  function Window<T>(list: seq<T>, maxSample: int, start: int, end: int): seq<T> {
    var capped := if maxSample > 0 then Slice(list, 0, maxSample) else list;
    if start >= 0 && end >= 0 then Slice(capped, start, end) else capped
  }

  /** Bounds on the size of the subset. */
  lemma SubsetSize<T>(list: seq<T>, maxSample: int, start: int, end: int)
    requires Subset(list, maxSample, start, end).Success?
    ensures var n := |Subset(list, maxSample, start, end).value|;
            && 1 <= n <= |list|
            && (maxSample > 0 ==> n <= maxSample)
            && (start >= 0 && end >= 0 ==> n <= end - start)
  {
  }

  /** Without options the whole list is kept, and only an empty manifest fails. */
  lemma SubsetDefaults<T>(list: seq<T>)
    ensures Subset(list, -1, -1, -1) == if |list| > 0 then Success(list) else Failure(EmptySampleList)
  {
  }

  /** Dividing a list at `k` with two `[start:end]` ranges covers it exactly:
      the two parts, concatenated, give back the list. */
  lemma SplitCoversList<T>(list: seq<T>, k: int)
    requires 0 <= k <= |list|
    ensures Window(list, -1, 0, k) + Window(list, -1, k, |list|) == list
  {
    assert Window(list, -1, 0, k) == list[..k];
    assert Window(list, -1, k, |list|) == list[k..];
  }
}

=== FILE: sampler.dfy ===
/** The aspect-bucket batch sampler of the training loader
    (`TrainDataset._get_sub_batch` and the lazy first shuffle of
    `TrainDataset.__getitem__`) as an explicit state machine. */
module Sampler {
  import opened Manifest
  import Sizes

  /** `height > width` sends a record to the first bucket; square and wide
      records go to the second. */
  predicate IsTall(r: Record) {
    r.height > r.width
  }

  predicate AllTall(rs: seq<Record>) {
    forall i :: 0 <= i < |rs| ==> IsTall(rs[i])
  }

  predicate AllWide(rs: seq<Record>) {
    forall i :: 0 <= i < |rs| ==> !IsTall(rs[i])
  }

  /** The records of `rs` that go to the first bucket, in order. */
  function Talls(rs: seq<Record>): (r: seq<Record>)
    ensures AllTall(r) && |r| <= |rs|
  {
    if |rs| == 0 then []
    else Talls(rs[..|rs| - 1]) + (if IsTall(rs[|rs| - 1]) then [rs[|rs| - 1]] else [])
  }

  /** The records of `rs` that go to the second bucket, in order. */
  function Wides(rs: seq<Record>): (r: seq<Record>)
    ensures AllWide(r) && |r| <= |rs|
  {
    if |rs| == 0 then []
    else Wides(rs[..|rs| - 1]) + (if IsTall(rs[|rs| - 1]) then [] else [rs[|rs| - 1]])
  }

  /** Every record lands in exactly one bucket. */
  lemma BucketsPartition(rs: seq<Record>)
    ensures |Talls(rs)| + |Wides(rs)| == |rs|
    ensures multiset(Talls(rs)) + multiset(Wides(rs)) == multiset(rs)
  {
    BucketsLength(rs);
    BucketsMultiset(rs);
  }

  lemma {:induction false} BucketsLength(rs: seq<Record>)
    ensures |Talls(rs)| + |Wides(rs)| == |rs|
  {
    if |rs| > 0 {
      BucketsLength(rs[..|rs| - 1]);
    }
  }

  lemma {:induction false} BucketsMultiset(rs: seq<Record>)
    ensures multiset(Talls(rs)) + multiset(Wides(rs)) == multiset(rs)
  {
    if |rs| > 0 {
      var init, last := rs[..|rs| - 1], rs[|rs| - 1];
      SplitLast(rs);
      BucketsMultiset(init);
      BucketsMultisetSnoc(init, last);
    }
  }

  lemma SplitLast<T>(s: seq<T>)
    requires |s| > 0
    ensures s == s[..|s| - 1] + [s[|s| - 1]]
  {
  }

  /** Appending one record adds it to exactly one of the two buckets. */
  lemma BucketsMultisetSnoc(init: seq<Record>, last: Record)
    requires multiset(Talls(init)) + multiset(Wides(init)) == multiset(init)
    ensures multiset(Talls(init + [last])) + multiset(Wides(init + [last])) == multiset(init + [last])
  {
    TallsSnoc(init, last);
    if IsTall(last) {
      MultisetSnoc(Talls(init), Wides(init), init, [last], [], last);
    } else {
      MultisetSnoc(Talls(init), Wides(init), init, [], [last], last);
    }
  }

  lemma MultisetSnoc(t: seq<Record>, w: seq<Record>, init: seq<Record>, x: seq<Record>, y: seq<Record>, last: Record)
    requires multiset(t) + multiset(w) == multiset(init)
    requires multiset(x) + multiset(y) == multiset{last}
    ensures multiset(t + x) + multiset(w + y) == multiset(init + [last])
  {
  }

  lemma {:induction false} FilterFrom(rs: seq<Record>)
    ensures forall i :: 0 <= i < |Talls(rs)| ==> Talls(rs)[i] in rs
    ensures forall i :: 0 <= i < |Wides(rs)| ==> Wides(rs)[i] in rs
  {
    if |rs| > 0 {
      FilterFrom(rs[..|rs| - 1]);
      assert forall x :: x in rs[..|rs| - 1] ==> x in rs;
    }
  }

  /** A reshuffle: given the list and how many reshuffles came before it
      (standing for the random generator's state), the new order. */
  type Shuffle = (seq<Record>, nat) -> seq<Record>

  /** The list after a reshuffle. Any permutation can be chosen through
      `shuffle`; an answer that is not a permutation of the list is not a
      shuffle and leaves the list as it was. */
  function Reshuffled(shuffle: Shuffle, s: seq<Record>, epoch: nat): (r: seq<Record>)
    ensures multiset(r) == multiset(s) && |r| == |s|
  {
    Permuted(shuffle(s, epoch), s)
  }

  function Permuted(candidate: seq<Record>, s: seq<Record>): (r: seq<Record>)
    ensures multiset(r) == multiset(s) && |r| == |s|
  {
    if multiset(candidate) == multiset(s) then
      assert |multiset(candidate)| == |multiset(s)|;
      candidate
    else s
  }

  /** Sampler state: the (shuffled) list, the cursor `cur_idx`, the two
      buckets of `batch_record_list`, the `if_shuffled` flag, and the number
      of reshuffles done so far. */
  datatype State = State(samples: seq<Record>, cursor: nat, tall: seq<Record>, wide: seq<Record>,
                         shuffled: bool, epoch: nat)

  /** The cursor points into the list. */
  predicate Valid(st: State) {
    0 <= st.cursor < |st.samples|
  }

  /** Each bucket holds only records of its own orientation. */
  predicate Sorted(st: State) {
    AllTall(st.tall) && AllWide(st.wide)
  }

  /** The state the loader is constructed in: the manifest list in its own
      order, not yet shuffled, with empty buckets. */
  function Initial(samples: seq<Record>): (st: State)
    requires |samples| > 0
    ensures Valid(st) && Sorted(st) && st.cursor == 0 && st.tall == [] && st.wide == []
    ensures st.samples == samples && !st.shuffled && st.epoch == 0
  {
    State(samples, 0, [], [], false, 0)
  }

  /** One iteration of the `while True` loop before its bucket test: append
      the record under the cursor to its bucket, advance the cursor, and wrap
      to 0 with a reshuffle when it reaches the end. */
  function Step(st: State, shuffle: Shuffle): (r: State)
    requires Valid(st)
    ensures Valid(r)
    ensures |r.samples| == |st.samples|
    ensures r.cursor == 0 <==> st.cursor + 1 == |st.samples|
    ensures r.cursor != 0 ==> r.cursor == st.cursor + 1
    ensures r.cursor != 0 ==> r.samples == st.samples && r.epoch == st.epoch
    // a wrap reshuffles the list once; the list is only ever permuted
    ensures r.cursor == 0 ==> r.samples == Reshuffled(shuffle, st.samples, st.epoch) && r.epoch == st.epoch + 1
    ensures multiset(r.samples) == multiset(st.samples)
    // the record under the cursor joins the bucket of its orientation
    ensures r.tall == st.tall + (if IsTall(st.samples[st.cursor]) then [st.samples[st.cursor]] else [])
    ensures r.wide == st.wide + (if IsTall(st.samples[st.cursor]) then [] else [st.samples[st.cursor]])
    ensures |r.tall| + |r.wide| == |st.tall| + |st.wide| + 1
    ensures r.shuffled == st.shuffled
  {
    var rec := st.samples[st.cursor];
    var filed := if IsTall(rec) then st.(tall := st.tall + [rec]) else st.(wide := st.wide + [rec]);
    if st.cursor + 1 >= |st.samples| then
      filed.(cursor := 0, samples := Reshuffled(shuffle, st.samples, st.epoch), epoch := st.epoch + 1)
    else
      filed.(cursor := st.cursor + 1)
  }

  lemma TallsSnoc(rs: seq<Record>, x: Record)
    ensures Talls(rs + [x]) == Talls(rs) + (if IsTall(x) then [x] else [])
    ensures Wides(rs + [x]) == Wides(rs) + (if IsTall(x) then [] else [x])
  {
    assert (rs + [x])[..|rs|] == rs;
  }

  /** The bucket test after each iteration: the first bucket is checked first. */
  function Drain(st: State, batchSize: nat): (r: (seq<Record>, State))
    requires |st.tall| == batchSize || |st.wide| == batchSize
    ensures |r.0| == batchSize
    ensures r.1.samples == st.samples && r.1.cursor == st.cursor
    ensures r.1.shuffled == st.shuffled && r.1.epoch == st.epoch
    // the returned bucket is emptied and the other one is kept
    ensures || (r.0 == st.tall && r.1.tall == [] && r.1.wide == st.wide)
            || (r.0 == st.wide && r.1.wide == [] && r.1.tall == st.tall)
    // the first bucket wins when both are full
    ensures |st.tall| == batchSize ==> r.0 == st.tall
  {
    if |st.tall| == batchSize then (st.tall, st.(tall := []))
    else (st.wide, st.(wide := []))
  }

  /** Within one pass, the records read from `st` are the next entries of
      its list. */
  ghost predicate ReadInOrder(st: State, pulled: seq<Record>) {
    st.cursor + |pulled| <= |st.samples| ==> pulled == st.samples[st.cursor..st.cursor + |pulled|]
  }

  /** `cur` is reached from `st` by reading the records `pulled`: the list
      is only reordered, and while no wrap has happened the cursor has
      advanced over exactly those records. */
  ghost predicate ReachedList(st: State, cur: State, pulled: seq<Record>) {
    && Valid(cur) && |cur.samples| == |st.samples|
    && multiset(cur.samples) == multiset(st.samples)
    && (st.cursor + |pulled| < |st.samples| ==> cur.samples == st.samples && cur.cursor == st.cursor + |pulled|)
    && ReadInOrder(st, pulled)
  }

  /** Each bucket of `cur` is the bucket of `st` grown by the records of
      its orientation among `pulled`, in the order read. */
  ghost predicate ReachedBuckets(st: State, cur: State, pulled: seq<Record>) {
    cur.tall == st.tall + Talls(pulled) && cur.wide == st.wide + Wides(pulled)
  }

  /** Every record read comes from the list the call started with. */
  ghost predicate ReachedFrom(st: State, cur: State, pulled: seq<Record>) {
    && Valid(cur) && cur.shuffled == st.shuffled
    && multiset(cur.samples) == multiset(st.samples)
    && forall i :: 0 <= i < |pulled| ==> pulled[i] in st.samples
  }

  lemma ReachedFromStep(st: State, cur: State, pulled: seq<Record>, shuffle: Shuffle)
    requires ReachedFrom(st, cur, pulled)
    ensures ReachedFrom(st, Step(cur, shuffle), pulled + [cur.samples[cur.cursor]])
  {
    var rec := cur.samples[cur.cursor];
    assert rec in multiset(cur.samples);
  }

  lemma ReachedListStep(st: State, cur: State, pulled: seq<Record>, shuffle: Shuffle)
    requires Valid(st) && ReachedList(st, cur, pulled)
    ensures ReachedList(st, Step(cur, shuffle), pulled + [cur.samples[cur.cursor]])
  {
    var rec := cur.samples[cur.cursor];
    if st.cursor + |pulled| + 1 <= |st.samples| {
      assert st.samples[st.cursor..st.cursor + |pulled| + 1] == pulled + [rec];
    }
  }

  lemma ReachedBucketsStep(st: State, cur: State, pulled: seq<Record>, shuffle: Shuffle)
    requires Valid(cur) && ReachedBuckets(st, cur, pulled)
    ensures ReachedBuckets(st, Step(cur, shuffle), pulled + [cur.samples[cur.cursor]])
  {
    var rec := cur.samples[cur.cursor];
    TallsSnoc(pulled, rec);
    AppendAssoc(st.tall, Talls(pulled), if IsTall(rec) then [rec] else []);
    AppendAssoc(st.wide, Wides(pulled), if IsTall(rec) then [] else [rec]);
  }

  lemma AppendAssoc(a: seq<Record>, b: seq<Record>, c: seq<Record>)
    ensures a + b + c == a + (b + c)
  {
  }

  /** The cursor has moved over `pulled` records, wrapping at the end, and
      every wrap has counted one reshuffle. */
  ghost predicate ReachedCursor(st: State, cur: State, pulled: seq<Record>) {
    && |st.samples| >= 1
    && cur.cursor == (st.cursor + |pulled|) % |st.samples|
    && cur.epoch == st.epoch + (st.cursor + |pulled|) / |st.samples|
  }

  /** Successor modulo `n`: one more, or 0 and one more lap on reaching `n`. */
  lemma ModSucc(a: int, n: int)
    requires a >= 0 && n >= 1
    ensures (a + 1) % n == if a % n + 1 == n then 0 else a % n + 1
    ensures (a + 1) / n == if a % n + 1 == n then a / n + 1 else a / n
  {
    var q, r := a / n, a % n;
    assert a == q * n + r;
    if r + 1 == n {
      assert a + 1 == (q + 1) * n + 0;
      Sizes.ModUnique(a + 1, n, q + 1, 0);
    } else {
      Sizes.ModUnique(a + 1, n, q, r + 1);
    }
  }

  lemma ReachedCursorStep(st: State, cur: State, pulled: seq<Record>, shuffle: Shuffle)
    requires Valid(cur) && |cur.samples| == |st.samples| && ReachedCursor(st, cur, pulled)
    ensures ReachedCursor(st, Step(cur, shuffle), pulled + [cur.samples[cur.cursor]])
  {
    ModSucc(st.cursor + |pulled|, |st.samples|);
  }

  /** After a wrap, the records read since the last wrap are the first
      entries of the current list; after exactly one wrap, that list is the
      one reshuffle of the list the call started with. */
  ghost predicate ReachedWrap(st: State, cur: State, pulled: seq<Record>, shuffle: Shuffle) {
    && Valid(cur)
    && (st.cursor + |pulled| >= |st.samples| ==>
          cur.cursor <= |pulled| && pulled[|pulled| - cur.cursor..] == cur.samples[..cur.cursor])
    && (|st.samples| <= st.cursor + |pulled| < 2 * |st.samples| ==>
          cur.samples == Reshuffled(shuffle, st.samples, st.epoch))
  }

  /** A read that does not wrap continues a run that began at the start of
      the call or at an earlier wrap. */
  lemma NoWrapMeansEarlierWrap(k: int, n: int, c: int)
    requires 0 <= k && n >= 1 && c == k % n && c + 1 < n && k + 1 >= n
    ensures k >= n
  {
    if k < n {
      Sizes.ModUnique(k, n, 0, k);
    }
  }

  /** The reading that wraps at the end of the first pass is at `n - 1`. */
  lemma FirstWrapAt(k: int, n: int)
    requires 0 <= k && n >= 1 && k % n + 1 == n && n <= k + 1 < 2 * n
    ensures k + 1 == n
  {
    if k >= n {
      Sizes.ModUnique(k, n, 1, k - n);
    }
  }

  lemma ReachedWrapStep(st: State, cur: State, pulled: seq<Record>, shuffle: Shuffle)
    requires Valid(st) && ReachedList(st, cur, pulled) && ReachedCursor(st, cur, pulled)
    requires ReachedWrap(st, cur, pulled, shuffle)
    ensures ReachedWrap(st, Step(cur, shuffle), pulled + [cur.samples[cur.cursor]], shuffle)
  {
    if cur.cursor + 1 == |cur.samples| {
      WrapAtEnd(st, cur, pulled, shuffle);
    } else {
      WrapWithin(st, cur, pulled, shuffle);
    }
  }

  /** The read that wraps: nothing of the new list has been read yet, and on
      the first pass the list is still the one the call started with. */
  lemma WrapAtEnd(st: State, cur: State, pulled: seq<Record>, shuffle: Shuffle)
    requires Valid(st) && ReachedList(st, cur, pulled) && ReachedCursor(st, cur, pulled)
    requires ReachedWrap(st, cur, pulled, shuffle)
    requires cur.cursor + 1 == |cur.samples|
    ensures ReachedWrap(st, Step(cur, shuffle), pulled + [cur.samples[cur.cursor]], shuffle)
  {
    var n, k := |st.samples|, st.cursor + |pulled|;
    var nx, pl := Step(cur, shuffle), pulled + [cur.samples[cur.cursor]];
    assert nx.cursor == 0;
    assert pl[|pl| - 0..] == [] == nx.samples[..0];
    if k + 1 < 2 * n {
      FirstWrapAt(k, n);
      Sizes.ModUnique(k, n, 0, k);
      assert cur.samples == st.samples && cur.epoch == st.epoch;
    }
  }

  /** A read inside the list extends the run read since the last wrap. */
  lemma WrapWithin(st: State, cur: State, pulled: seq<Record>, shuffle: Shuffle)
    requires Valid(st) && ReachedList(st, cur, pulled) && ReachedCursor(st, cur, pulled)
    requires ReachedWrap(st, cur, pulled, shuffle)
    requires cur.cursor + 1 < |cur.samples|
    ensures ReachedWrap(st, Step(cur, shuffle), pulled + [cur.samples[cur.cursor]], shuffle)
  {
    var n, k, rec := |st.samples|, st.cursor + |pulled|, cur.samples[cur.cursor];
    var nx, pl := Step(cur, shuffle), pulled + [rec];
    assert nx.samples == cur.samples && nx.cursor == cur.cursor + 1;
    if k + 1 >= n {
      NoWrapMeansEarlierWrap(k, n, cur.cursor);
      assert pl[|pl| - nx.cursor..] == pulled[|pulled| - cur.cursor..] + [rec];
      assert nx.samples[..nx.cursor] == cur.samples[..cur.cursor] + [rec];
    }
  }

  ghost predicate Reached(st: State, cur: State, pulled: seq<Record>, shuffle: Shuffle) {
    && ReachedList(st, cur, pulled) && ReachedBuckets(st, cur, pulled) && ReachedFrom(st, cur, pulled)
    && ReachedCursor(st, cur, pulled) && ReachedWrap(st, cur, pulled, shuffle)
  }

  /** Before the first read, the state has reached itself. */
  lemma ReachedStart(st: State, shuffle: Shuffle)
    requires Valid(st)
    ensures Reached(st, st, [], shuffle)
  {
    Sizes.ModUnique(st.cursor, |st.samples|, 0, st.cursor);
  }

  lemma Advance(st: State, cur: State, pulled: seq<Record>, shuffle: Shuffle)
    requires Valid(st) && Reached(st, cur, pulled, shuffle)
    ensures Reached(st, Step(cur, shuffle), pulled + [cur.samples[cur.cursor]], shuffle)
  {
    ReachedListStep(st, cur, pulled, shuffle);
    ReachedBucketsStep(st, cur, pulled, shuffle);
    ReachedFromStep(st, cur, pulled, shuffle);
    ReachedCursorStep(st, cur, pulled, shuffle);
    ReachedWrapStep(st, cur, pulled, shuffle);
  }

  /** The bucket that reaches `batchSize` on the last read is returned whole;
      it holds one orientation only and ends with the record just read. */
  lemma DrainFull(st: State, cur: State, pulled: seq<Record>, batchSize: nat)
    requires Sorted(st) && batchSize >= 1 && |pulled| >= 1
    requires ReachedBuckets(st, cur, pulled)
    requires |st.tall| + |Talls(pulled[..|pulled| - 1])| < batchSize
    requires |st.wide| + |Wides(pulled[..|pulled| - 1])| < batchSize
    requires |cur.tall| == batchSize || |cur.wide| == batchSize
    ensures var (batch, next) := Drain(cur, batchSize);
            && (AllTall(batch) || AllWide(batch))
            && Sorted(next) && |next.tall| < batchSize && |next.wide| < batchSize
            && batch[batchSize - 1] == pulled[|pulled| - 1]
            && |pulled| <= 2 * batchSize - 1 - |st.tall| - |st.wide|
  {
    if |cur.tall| == batchSize {
      FullTall(st, cur, pulled, batchSize);
    } else {
      FullWide(st, cur, pulled, batchSize);
    }
  }

  /** The first bucket fills on the last read: that record is tall, and the
      second bucket did not grow. */
  lemma FullTall(st: State, cur: State, pulled: seq<Record>, batchSize: nat)
    requires Sorted(st) && batchSize >= 1 && |pulled| >= 1
    requires ReachedBuckets(st, cur, pulled)
    requires |st.tall| + |Talls(pulled[..|pulled| - 1])| < batchSize
    requires |st.wide| + |Wides(pulled[..|pulled| - 1])| < batchSize
    requires |cur.tall| == batchSize
    ensures AllTall(cur.tall) && AllWide(cur.wide) && |cur.wide| < batchSize
    ensures cur.tall[batchSize - 1] == pulled[|pulled| - 1]
    ensures |pulled| <= 2 * batchSize - 1 - |st.tall| - |st.wide|
  {
    var init, rec := pulled[..|pulled| - 1], pulled[|pulled| - 1];
    assert pulled == init + [rec];
    TallsSnoc(init, rec);
    BucketsLength(init);
    assert IsTall(rec);
    assert cur.tall == (st.tall + Talls(init)) + [rec];
  }

  /** The second bucket fills on the last read while the first does not:
      that record is wide, and the first bucket did not grow. */
  lemma FullWide(st: State, cur: State, pulled: seq<Record>, batchSize: nat)
    requires Sorted(st) && batchSize >= 1 && |pulled| >= 1
    requires ReachedBuckets(st, cur, pulled)
    requires |st.tall| + |Talls(pulled[..|pulled| - 1])| < batchSize
    requires |st.wide| + |Wides(pulled[..|pulled| - 1])| < batchSize
    requires |cur.tall| != batchSize && |cur.wide| == batchSize
    ensures AllTall(cur.tall) && AllWide(cur.wide) && |cur.tall| < batchSize
    ensures cur.wide[batchSize - 1] == pulled[|pulled| - 1]
    ensures |pulled| <= 2 * batchSize - 1 - |st.tall| - |st.wide|
  {
    var init, rec := pulled[..|pulled| - 1], pulled[|pulled| - 1];
    assert pulled == init + [rec];
    TallsSnoc(init, rec);
    BucketsLength(init);
    assert !IsTall(rec);
    assert cur.wide == (st.wide + Wides(init)) + [rec];
  }

  /** One `_get_sub_batch` call from `st`: it read `pulled` from the list,
      returned `batch` and left `next`. */
  ghost predicate SubBatch(st: State, batchSize: nat, batch: seq<Record>, next: State, pulled: seq<Record>,
                           shuffle: Shuffle) {
    && Valid(st) && batchSize >= 1
    && SubBatchBuckets(st, batchSize, batch, next, pulled)
    && SubBatchList(st, next, pulled, shuffle)
  }

  /** What one call does to the buckets. */
  ghost predicate SubBatchBuckets(st: State, batchSize: nat, batch: seq<Record>, next: State, pulled: seq<Record>) {
    // a full batch of one orientation, and buckets that are again below the batch size
    && |batch| == batchSize && (AllTall(batch) || AllWide(batch))
    && Sorted(next) && |next.tall| < batchSize && |next.wide| < batchSize
    && 1 <= |pulled| <= 2 * batchSize - 1 - |st.tall| - |st.wide|
    // the bucket that fills is returned whole and emptied; the other keeps its records
    && (|| (batch == st.tall + Talls(pulled) && next.tall == [] && next.wide == st.wide + Wides(pulled))
        || (batch == st.wide + Wides(pulled) && next.wide == [] && next.tall == st.tall + Talls(pulled)))
    // the batch filled with the last record read, so no bucket was full earlier
    && batch[batchSize - 1] == pulled[|pulled| - 1]
  }

  /** What one call does to the list, its cursor and its epoch. */
  ghost predicate SubBatchList(st: State, next: State, pulled: seq<Record>, shuffle: Shuffle)
    requires Valid(st)
  {
    // the list is only permuted, and the first request's flag is untouched
    && Valid(next) && multiset(next.samples) == multiset(st.samples) && next.shuffled == st.shuffled
    // records are only read from the list, and within one pass they are its next entries
    && (forall i :: 0 <= i < |pulled| ==> pulled[i] in st.samples)
    && ReadInOrder(st, pulled)
    // the cursor has moved over every record read, wrapping at the end of the list,
    // and each wrap counted one epoch
    && next.cursor == (st.cursor + |pulled|) % |st.samples|
    && next.epoch == st.epoch + (st.cursor + |pulled|) / |st.samples|
    && (st.cursor + |pulled| < |st.samples| ==> next.samples == st.samples)
    // after a wrap, the last records read are the first entries of the new list,
    // which after exactly one wrap is the reshuffle of the list the call started with
    && (st.cursor + |pulled| >= |st.samples| ==>
          next.cursor <= |pulled| && pulled[|pulled| - next.cursor..] == next.samples[..next.cursor])
    && (|st.samples| <= st.cursor + |pulled| < 2 * |st.samples| ==>
          next.samples == Reshuffled(shuffle, st.samples, st.epoch))
  }

  /** Everything `GetSubBatch` promises, once a bucket is full after reading
      `pulled`. */
  lemma Finish(st: State, cur: State, pulled: seq<Record>, batchSize: nat, shuffle: Shuffle)
    requires Valid(st) && Sorted(st) && batchSize >= 1 && |pulled| >= 1
    requires Reached(st, cur, pulled, shuffle)
    requires |st.tall| + |Talls(pulled[..|pulled| - 1])| < batchSize
    requires |st.wide| + |Wides(pulled[..|pulled| - 1])| < batchSize
    requires |cur.tall| == batchSize || |cur.wide| == batchSize
    ensures SubBatch(st, batchSize, Drain(cur, batchSize).0, Drain(cur, batchSize).1, pulled, shuffle)
  {
    DrainFull(st, cur, pulled, batchSize);
    FinishList(st, cur, Drain(cur, batchSize).1, pulled, shuffle);
  }

  /** Draining a bucket leaves the list, the cursor and the epoch as the
      reads left them. */
  lemma FinishList(st: State, cur: State, next: State, pulled: seq<Record>, shuffle: Shuffle)
    requires Valid(st) && Reached(st, cur, pulled, shuffle)
    requires next.samples == cur.samples && next.cursor == cur.cursor && next.epoch == cur.epoch
    requires next.shuffled == cur.shuffled
    ensures SubBatchList(st, next, pulled, shuffle)
  {
    var n, k := |st.samples|, st.cursor + |pulled|;
    assert next.cursor == k % n && next.epoch == st.epoch + k / n;
    assert k < n ==> next.samples == st.samples;
    assert k >= n ==> next.cursor <= |pulled| && pulled[|pulled| - next.cursor..] == next.samples[..next.cursor];
    assert n <= k < 2 * n ==> next.samples == Reshuffled(shuffle, st.samples, st.epoch);
  }

  method GetSubBatch(st: State, batchSize: nat, shuffle: Shuffle)
    returns (batch: seq<Record>, next: State, pulled: seq<Record>)
    requires Valid(st) && Sorted(st)
    requires batchSize >= 1 && |st.tall| < batchSize && |st.wide| < batchSize
    ensures SubBatch(st, batchSize, batch, next, pulled, shuffle)
  {
    var cur := st;
    pulled := [];
    ReachedStart(st, shuffle);
    while true
      invariant Reached(st, cur, pulled, shuffle)
      invariant |cur.tall| < batchSize && |cur.wide| < batchSize
      decreases 2 * batchSize - |cur.tall| - |cur.wide|
    {
      var rec := cur.samples[cur.cursor];
      Advance(st, cur, pulled, shuffle);
      ghost var old_pulled := pulled;
      cur, pulled := Step(cur, shuffle), pulled + [rec];
      if |cur.tall| == batchSize || |cur.wide| == batchSize {
        assert pulled[..|pulled| - 1] == old_pulled;
        Finish(st, cur, pulled, batchSize, shuffle);
        batch, next := Drain(cur, batchSize).0, Drain(cur, batchSize).1;
        return;
      }
    }
  }

  /** The lazy first shuffle of `__getitem__`, seeded by the requested index;
      it happens on the first request only. */
  function Begin(st: State, index: int, seeded: (seq<Record>, int) -> seq<Record>): (r: State)
    ensures r.shuffled
    ensures st.shuffled ==> r == st
    ensures multiset(r.samples) == multiset(st.samples)
    ensures r.cursor == st.cursor && r.tall == st.tall && r.wide == st.wide && r.epoch == st.epoch
  {
    if st.shuffled then st else st.(samples := Permuted(seeded(st.samples, index), st.samples), shuffled := true)
  }

  /** Later requests never reshuffle: whatever index they carry, the list
      stays in the order the first request gave it. */
  lemma BeginOnce(st: State, i: int, j: int, seeded: (seq<Record>, int) -> seq<Record>)
    ensures Begin(Begin(st, i, seeded), j, seeded) == Begin(st, i, seeded)
  {
  }
}

=== FILE: sizes.dfy ===
/** Integer size arithmetic of the loaders: rounding up to a multiple, the
    per-sample scale, the batch canvas, and the zero padding of a label map
    before it is downsampled. */
module Sizes {

  // ---------------------------------------------------------------------
  // round2nearest_multiple

  /** `((x - 1) // p + 1) * p`; for a positive divisor Dafny's `/` is Python's
      floor division, also when `x - 1` is negative. */
  function RoundUp(x: int, p: int): (r: int)
    requires p >= 1
    ensures r % p == 0
    ensures x <= r < x + p
  {
    var q := (x - 1) / p;
    assert x - 1 == q * p + (x - 1) % p;
    assert (q + 1) * p == q * p + p;
    MultipleMod(q + 1, p);
    (q + 1) * p
  }

  lemma MultipleMod(a: int, p: int)
    requires p >= 1
    ensures (a * p) % p == 0
  {
    var q, rem := (a * p) / p, (a * p) % p;
    assert rem == (a - q) * p;
    MulLtCancel(a - q, 1, p);
    MulLeCancel(0, a - q, p);
  }

  /** Division with remainder has one answer. */
  lemma ModUnique(x: int, n: int, q: int, r: int)
    requires n >= 1 && x == q * n + r && 0 <= r < n
    ensures x % n == r && x / n == q
  {
    var q', r' := x / n, x % n;
    assert (q - q') * n == r' - r;
    MulLtCancel(q - q', 1, n);
    MulLtCancel(q' - q, 1, n);
  }

  lemma MultipleOfMultiple(x: int, p: int, d: int)
    requires p >= 1 && d >= 1 && x % p == 0 && p % d == 0
    ensures x % d == 0
  {
    var a, b := x / p, p / d;
    assert x == a * p && p == b * d;
    assert x == (a * b) * d;
    MultipleMod(a * b, d);
  }

  lemma RoundUpOfZero(p: int)
    requires p >= 1
    ensures RoundUp(0, p) == 0
  {
  }

  /** No smaller multiple of `p` is at least `x`. */
  lemma RoundUpIsLeast(x: int, p: int, m: int)
    requires p >= 1
    requires m % p == 0 && x <= m
    ensures RoundUp(x, p) <= m
  {
    // both are multiples of p, and r - p < x <= m
    var r := RoundUp(x, p);
    var a, b := r / p, m / p;
    assert r == a * p && m == b * p;
    assert (a - 1) * p == r - p < m;
    MulLtCancel(a - 1, b, p);
    MulMonotone(a, b, p);
  }

  lemma RoundUpIdempotent(x: int, p: int)
    requires p >= 1
    ensures RoundUp(RoundUp(x, p), p) == RoundUp(x, p)
  {
    RoundUpIsLeast(RoundUp(x, p), p, RoundUp(x, p));
  }

  lemma RoundUpMonotone(x: int, y: int, p: int)
    requires p >= 1 && x <= y
    ensures RoundUp(x, p) <= RoundUp(y, p)
  {
    RoundUpIsLeast(x, p, RoundUp(y, p));
  }

  // ---------------------------------------------------------------------
  // Scale and scaled size

  /** A nonnegative rational `num / den`. */
  datatype Ratio = Ratio(num: int, den: int)

  function Min(a: int, b: int): int { if b < a then b else a }
  function Max(a: int, b: int): int { if b > a then b else a }

  /** `min(short / min(h, w), maxSize / max(h, w))` as an exact rational. */
  function Scale(h: int, w: int, short: int, maxSize: int): (r: Ratio)
    requires h >= 1 && w >= 1 && short >= 0 && maxSize >= 0
    ensures r.den >= 1 && r.num >= 0
    ensures r.num * Min(h, w) <= short * r.den
    ensures r.num * Max(h, w) <= maxSize * r.den
    ensures r.num * Min(h, w) == short * r.den || r.num * Max(h, w) == maxSize * r.den
  {
    var mn, mx := Min(h, w), Max(h, w);
    if short * mx <= maxSize * mn then Ratio(short, mn) else Ratio(maxSize, mx)
  }

  /** `int(dim * scale)` for nonnegative values: the floor of the product. */
  function FloorMul(dim: int, s: Ratio): (q: int)
    requires dim >= 0 && s.num >= 0 && s.den >= 1
    ensures q >= 0
    ensures q * s.den <= dim * s.num < (q + 1) * s.den
  {
    (dim * s.num) / s.den
  }

  /** Height and width of a sample after scaling, as `TrainDataset.__getitem__`
      and the target sizes of `ValDataset` and `TestDataset` compute them:
      each edge is the floor of the edge times the scale. */
  function ScaledSize(h: int, w: int, short: int, maxSize: int): (r: (int, int))
    requires h >= 1 && w >= 1 && short >= 0 && maxSize >= 0
    ensures r.0 >= 0 && r.1 >= 0
    ensures var s := Scale(h, w, short, maxSize);
            && r.0 * s.den <= h * s.num < (r.0 + 1) * s.den
            && r.1 * s.den <= w * s.num < (r.1 + 1) * s.den
  {
    var s := Scale(h, w, short, maxSize);
    (FloorMul(h, s), FloorMul(w, s))
  }

  lemma MulLeCancel(a: int, b: int, c: int)
    requires c >= 1 && a * c <= b * c
    ensures a <= b
  {
  }

  lemma MulMonotone(a: int, b: int, c: int)
    requires c >= 1 && a <= b
    ensures a * c <= b * c
  {
  }

  lemma MulLtCancel(a: int, b: int, c: int)
    requires c >= 1 && a * c < b * c
    ensures a < b
  {
  }

  /** Scaling keeps the order of the two edges. */
  lemma FloorMulMonotone(x: int, y: int, s: Ratio)
    requires 0 <= x <= y && s.num >= 0 && s.den >= 1
    ensures FloorMul(x, s) <= FloorMul(y, s)
  {
    var qx, qy := FloorMul(x, s), FloorMul(y, s);
    assert x * s.num <= y * s.num by {
      assert (y - x) * s.num >= 0;
    }
    MulLtCancel(qx, qy + 1, s.den);
  }

  /** The scaled short edge never exceeds the chosen short size, the scaled
      long edge never exceeds the maximum size, and one of the two limits is
      met exactly: the scale is the largest one both limits allow. */
  lemma ScaledSizeBounds(h: int, w: int, short: int, maxSize: int)
    requires h >= 1 && w >= 1 && short >= 0 && maxSize >= 0
    ensures var (sh, sw) := ScaledSize(h, w, short, maxSize);
            && sh >= 0 && sw >= 0
            && Min(sh, sw) <= short
            && Max(sh, sw) <= maxSize
            && (Min(sh, sw) == short || Max(sh, sw) == maxSize)
  {
    var s := Scale(h, w, short, maxSize);
    var mn, mx := Min(h, w), Max(h, w);
    var qn, qx := FloorMul(mn, s), FloorMul(mx, s);
    FloorMulMonotone(mn, mx, s);
    var (sh, sw) := ScaledSize(h, w, short, maxSize);
    assert Min(sh, sw) == qn && Max(sh, sw) == qx by {
      if h <= w {
        assert sh == qn && sw == qx;
      } else {
        assert sh == qx && sw == qn;
      }
    }
    FloorsWithinLimits(qn, qx, mn, mx, s.num, s.den, short, maxSize);
  }

  /** The floors of the two scaled edges stay within the limits the scale
      respects, and reach the one it meets exactly. */
  lemma FloorsWithinLimits(qn: int, qx: int, mn: int, mx: int, num: int, den: int, short: int, maxSize: int)
    requires den >= 1
    requires qn * den <= mn * num < (qn + 1) * den
    requires qx * den <= mx * num < (qx + 1) * den
    requires num * mn <= short * den && num * mx <= maxSize * den
    requires num * mn == short * den || num * mx == maxSize * den
    ensures qn <= short && qx <= maxSize && (qn == short || qx == maxSize)
  {
    MulLeCancel(qn, short, den);
    MulLeCancel(qx, maxSize, den);
    if num * mn == short * den {
      MulLtCancel(short, qn + 1, den);
    } else {
      MulLtCancel(maxSize, qx + 1, den);
    }
  }

  /** Target size of one pyramid level in the validation and test loaders:
      the scaled size, each edge rounded up to the padding constant. */
  function TargetSize(h: int, w: int, short: int, maxSize: int, p: int): (r: (int, int))
    requires h >= 1 && w >= 1 && short >= 0 && maxSize >= 0 && p >= 1
    ensures r.0 % p == 0 && r.1 % p == 0
    ensures ScaledSize(h, w, short, maxSize).0 <= r.0 < ScaledSize(h, w, short, maxSize).0 + p
    ensures ScaledSize(h, w, short, maxSize).1 <= r.1 < ScaledSize(h, w, short, maxSize).1 + p
  {
    var (sh, sw) := ScaledSize(h, w, short, maxSize);
    (RoundUp(sh, p), RoundUp(sw, p))
  }

  predicate AllAtLeast(sizes: seq<int>, lo: int) {
    forall i :: 0 <= i < |sizes| ==> sizes[i] >= lo
  }

  /** The loop over `imgSizes` of the validation and test loaders: one
      target size per configured short size, in the configured order. */
  function TargetSizes(h: int, w: int, shorts: seq<int>, maxSize: int, p: int): (r: seq<(int, int)>)
    requires h >= 1 && w >= 1 && AllAtLeast(shorts, 0) && maxSize >= 0 && p >= 1
    ensures |r| == |shorts|
    ensures forall i :: 0 <= i < |shorts| ==> r[i] == TargetSize(h, w, shorts[i], maxSize, p)
  {
    if |shorts| == 0 then []
    else [TargetSize(h, w, shorts[0], maxSize, p)] + TargetSizes(h, w, shorts[1..], maxSize, p)
  }

  // ---------------------------------------------------------------------
  // Batch canvas

  function MaxOf(xs: seq<int>): (m: int)
    requires |xs| >= 1
    ensures m in xs
    ensures forall i :: 0 <= i < |xs| ==> xs[i] <= m
  {
    if |xs| == 1 then xs[0]
    else
      var rest := MaxOf(xs[1..]);
      assert forall i :: 1 <= i < |xs| ==> xs[i] == xs[1..][i - 1];
      Max(xs[0], rest)
  }

  /** One side of the batch canvas: the largest per-sample extent rounded up
      to the padding constant. It holds every sample, is a multiple of `p`,
      and no smaller multiple of `p` holds every sample. */
  function CanvasSide(extents: seq<int>, p: int): (r: int)
    requires |extents| >= 1 && p >= 1
    ensures r % p == 0
    ensures forall i :: 0 <= i < |extents| ==> extents[i] <= r
    ensures forall m :: m % p == 0 && (forall i :: 0 <= i < |extents| ==> extents[i] <= m) ==> r <= m
  {
    var mx := MaxOf(extents);
    forall m | m % p == 0 && (forall i :: 0 <= i < |extents| ==> extents[i] <= m)
      ensures RoundUp(mx, p) <= m
    {
      RoundUpIsLeast(mx, p, m);
    }
    RoundUp(mx, p)
  }

  // ---------------------------------------------------------------------
  // Label padding before downsampling

  type Grid = seq<seq<int>>

  predicate IsRect(g: Grid, h: int, w: int) {
    |g| == h && forall i :: 0 <= i < |g| ==> |g[i]| == w
  }

  function Crop(g: Grid, h: nat, w: nat): (r: Grid)
    requires |g| >= h && forall i :: 0 <= i < |g| ==> |g[i]| >= w
    ensures IsRect(r, h, w)
  {
    seq(h, i requires 0 <= i < h => g[i][..w])
  }

  /** `segm_rounded`: a zero grid whose sides are the label's sides rounded up
      to the downsampling rate, with the label copied into its top-left corner. */
  function PadToMultiple(g: Grid, h: nat, w: nat, d: int): (r: Grid)
    requires d >= 1 && IsRect(g, h, w)
    ensures IsRect(r, RoundUp(h, d), RoundUp(w, d))
    ensures |r| % d == 0 && h <= |r| < h + d
    ensures Crop(r, h, w) == g
    ensures forall i, j :: 0 <= i < |r| && 0 <= j < |r[i]| && (i >= h || j >= w) ==> r[i][j] == 0
  {
    var rh, rw := RoundUp(h, d), RoundUp(w, d);
    var r := seq(rh, i requires 0 <= i < rh =>
                   seq(rw, j requires 0 <= j < rw => if i < h && j < w then g[i][j] else 0));
    assert forall i :: 0 <= i < h ==> r[i][..w] == g[i];
    r
  }

  /** Size of the label after the downsampling resize in `TrainDataset.__getitem__`: the
      padded size divided by the rate, which is `ceil(extent / d)`. */
  function DownsampledExtent(extent: int, d: int): (r: int)
    requires extent >= 0 && d >= 1
    ensures (r - 1) * d < extent <= r * d
    ensures r * d == RoundUp(extent, d)
  {
    var padded := RoundUp(extent, d);
    var r := padded / d;
    assert padded == r * d;
    r
  }

  /** When the rate divides the padding constant, a downsampled label never
      outgrows the label canvas `canvas // d` of a canvas that holds the sample. */
  lemma DownsampledFitsWhenRateDividesPadding(extent: int, canvas: int, p: int, d: int)
    requires 0 <= extent <= canvas && p >= 1 && d >= 1
    requires canvas % p == 0 && p % d == 0
    ensures DownsampledExtent(extent, d) <= canvas / d
  {
    MultipleOfMultiple(canvas, p, d);
    RoundUpIsLeast(extent, d, canvas);
    var r := DownsampledExtent(extent, d);
    assert r * d <= canvas;
    assert canvas == (canvas / d) * d;
    MulLeCancel(r, canvas / d, d);
  }
}

=== FILE: train_batch.dfy ===
/** Shape of one training batch (`TrainDataset.__getitem__` after the
    sub-batch is drawn): per-sample scaled sizes, the padded image canvas,
    the label canvas, and the size of each downsampled label that must fit
    into it. */
module TrainBatch {
  import opened Wrappers
  import opened Manifest
  import opened Sizes
  import Sampler

  /** The options the batch shape depends on: `imgSizes`, `imgMaxSize`,
      `padding_constant` and `segm_downsampling_rate`. */
  datatype Config = Config(imgSizes: seq<int>, imgMaxSize: int, paddingConstant: int, segmDownsamplingRate: int)

  predicate ValidConfig(cfg: Config) {
    && (forall i :: 0 <= i < |cfg.imgSizes| ==> cfg.imgSizes[i] >= 0)
    && cfg.imgMaxSize >= 0 && cfg.paddingConstant >= 1 && cfg.segmDownsamplingRate >= 1
  }

  datatype Shape = Shape(
    sampleSizes: seq<(int, int)>,   // (height, width) of each resized image
    height: int, width: int,        // image canvas
    labelHeight: int, labelWidth: int, // label canvas
    labelSizes: seq<(int, int)>)    // (height, width) of each downsampled label

  datatype LayoutError =
    | PaddingBelowRate   // `assert padding_constant >= segm_downsampling_rate`
    | RateNotDivisor     // the rate does not divide the padding constant
    | EmptyResize        // a scaled edge of 0, which the resize of the sample rejects
    | LabelOverflow      // a label larger than its slot of the label canvas

  function Heights(sizes: seq<(int, int)>): (r: seq<int>)
    ensures |r| == |sizes| && forall i :: 0 <= i < |sizes| ==> r[i] == sizes[i].0
  {
    seq(|sizes|, i requires 0 <= i < |sizes| => sizes[i].0)
  }

  function Widths(sizes: seq<(int, int)>): (r: seq<int>)
    ensures |r| == |sizes| && forall i :: 0 <= i < |sizes| ==> r[i] == sizes[i].1
  {
    seq(|sizes|, i requires 0 <= i < |sizes| => sizes[i].1)
  }

  /** `batch_heights` and `batch_widths`: each record scaled with the batch's
      short size. */
  function SampleSizes(records: seq<Record>, short: int, maxSize: int): (r: seq<(int, int)>)
    requires Measurable(records) && short >= 0 && maxSize >= 0
    ensures |r| == |records|
    ensures forall i :: 0 <= i < |records| ==>
              r[i] == ScaledSize(records[i].height, records[i].width, short, maxSize)
  {
    seq(|records|, i requires 0 <= i < |records| =>
          ScaledSize(records[i].height, records[i].width, short, maxSize))
  }

  /** Size of one label after zero padding to the rate and downsampling. */
  function LabelSize(size: (int, int), d: int): (int, int)
    requires size.0 >= 0 && size.1 >= 0 && d >= 1
  {
    (DownsampledExtent(size.0, d), DownsampledExtent(size.1, d))
  }

  function LabelSizes(sizes: seq<(int, int)>, d: int): (r: seq<(int, int)>)
    requires d >= 1 && forall i :: 0 <= i < |sizes| ==> sizes[i].0 >= 0 && sizes[i].1 >= 0
    ensures |r| == |sizes| && forall i :: 0 <= i < |sizes| ==> r[i] == LabelSize(sizes[i], d)
  {
    seq(|sizes|, i requires 0 <= i < |sizes| => LabelSize(sizes[i], d))
  }

  predicate LabelsFit(s: Shape) {
    forall i :: 0 <= i < |s.labelSizes| ==> LabelFits(s, i)
  }

  predicate LabelFits(s: Shape, i: int)
    requires 0 <= i < |s.labelSizes|
  {
    s.labelSizes[i].0 <= s.labelHeight && s.labelSizes[i].1 <= s.labelWidth
  }

  /** Both scaled edges of sample `i` are positive, so it can be resized. */
  predicate Resizable(s: Shape, i: int)
    requires 0 <= i < |s.sampleSizes|
  {
    s.sampleSizes[i].0 >= 1 && s.sampleSizes[i].1 >= 1
  }

  predicate AllResizable(s: Shape) {
    forall i :: 0 <= i < |s.sampleSizes| ==> Resizable(s, i)
  }

  /** Sample `i` survives its turn of the copy loop: its resize and the copy
      of its label both succeed. */
  predicate SampleOk(s: Shape, i: int)
    requires 0 <= i < |s.sampleSizes| == |s.labelSizes|
  {
    Resizable(s, i) && LabelFits(s, i)
  }

  /** Index of the first sample, from `lo` on, whose turn of the copy loop
      fails; the number of samples when none does. */
  function FirstBad(s: Shape, lo: nat): (k: nat)
    requires |s.sampleSizes| == |s.labelSizes| && lo <= |s.sampleSizes|
    ensures lo <= k <= |s.sampleSizes|
    ensures forall j :: lo <= j < k ==> SampleOk(s, j)
    ensures k < |s.sampleSizes| ==> !SampleOk(s, k)
    decreases |s.sampleSizes| - lo
  {
    if lo == |s.sampleSizes| || !SampleOk(s, lo) then lo else FirstBad(s, lo + 1)
  }

  /** The shape computed before the guard: canvases and per-sample sizes. */
  function ComputeShape(cfg: Config, records: seq<Record>, short: int): (s: Shape)
    requires ValidConfig(cfg) && |records| >= 1 && Measurable(records) && short >= 0
    ensures |s.sampleSizes| == |records| && |s.labelSizes| == |records|
    ensures forall i :: 0 <= i < |records| ==>
              s.sampleSizes[i] == ScaledSize(records[i].height, records[i].width, short, cfg.imgMaxSize)
    ensures s.height % cfg.paddingConstant == 0 && s.width % cfg.paddingConstant == 0
    ensures forall i :: 0 <= i < |records| ==>
              0 <= s.sampleSizes[i].0 <= s.height && 0 <= s.sampleSizes[i].1 <= s.width
    // each canvas side is the largest sample side rounded up to the padding constant
    ensures s.height == CanvasSide(Heights(s.sampleSizes), cfg.paddingConstant)
    ensures s.width == CanvasSide(Widths(s.sampleSizes), cfg.paddingConstant)
    // each label is padded to the rate and downsampled
    ensures forall i :: 0 <= i < |records| ==>
              s.labelSizes[i] == (DownsampledExtent(s.sampleSizes[i].0, cfg.segmDownsamplingRate),
                                  DownsampledExtent(s.sampleSizes[i].1, cfg.segmDownsamplingRate))
    ensures s.labelHeight == s.height / cfg.segmDownsamplingRate
    ensures s.labelWidth == s.width / cfg.segmDownsamplingRate
  {
    var sizes := SampleSizes(records, short, cfg.imgMaxSize);
    forall i | 0 <= i < |records|
      ensures sizes[i].0 >= 0 && sizes[i].1 >= 0
    {
      ScaledSizeBounds(records[i].height, records[i].width, short, cfg.imgMaxSize);
    }
    var h := CanvasSide(Heights(sizes), cfg.paddingConstant);
    var w := CanvasSide(Widths(sizes), cfg.paddingConstant);
    Shape(sizes, h, w, h / cfg.segmDownsamplingRate, w / cfg.segmDownsamplingRate,
          LabelSizes(sizes, cfg.segmDownsamplingRate))
  }

  /** The copy loop of `__getitem__` over the samples of a computed shape:
      the first sample whose resize gets a zero edge, or whose label does not
      fit its slot of the label canvas, stops the request. */
  function CopyLoop(s: Shape): (r: Result<Shape, LayoutError>)
    requires |s.sampleSizes| == |s.labelSizes|
    ensures r.Success? <==> AllResizable(s) && LabelsFit(s)
    ensures r.Success? ==> r.value == s
    ensures r.Failure? ==> r.error == EmptyResize || r.error == LabelOverflow
    // the failing sample is the first one that fails, and the error names its cause
    ensures r == Failure(EmptyResize) ==>
              exists k :: 0 <= k < |s.sampleSizes| && (forall j :: 0 <= j < k ==> SampleOk(s, j)) && !Resizable(s, k)
    ensures r == Failure(LabelOverflow) ==>
              exists k :: 0 <= k < |s.sampleSizes| && (forall j :: 0 <= j < k ==> SampleOk(s, j))
                          && Resizable(s, k) && !LabelFits(s, k)
  {
    var k := FirstBad(s, 0);
    if k == |s.sampleSizes| then
      assert forall j :: 0 <= j < k ==> SampleOk(s, j);
      assert AllResizable(s) by {
        forall j | 0 <= j < |s.sampleSizes| ensures Resizable(s, j) { assert SampleOk(s, j); }
      }
      assert LabelsFit(s) by {
        forall j | 0 <= j < |s.labelSizes| ensures LabelFits(s, j) { assert SampleOk(s, j); }
      }
      Success(s)
    else if !Resizable(s, k) then Failure(EmptyResize)
    else Failure(LabelOverflow)
  }

  /** The batch shape AS WRITTEN: the guard of `__getitem__` only compares
      the padding constant with the rate, then the copy loop runs. */
  function LayoutAsWritten(cfg: Config, records: seq<Record>, short: int): (r: Result<Shape, LayoutError>)
    requires ValidConfig(cfg) && |records| >= 1 && Measurable(records) && short >= 0
    ensures r == Failure(PaddingBelowRate) <==> cfg.paddingConstant < cfg.segmDownsamplingRate
    ensures r.Success? <==>
              && cfg.paddingConstant >= cfg.segmDownsamplingRate
              && AllResizable(ComputeShape(cfg, records, short)) && LabelsFit(ComputeShape(cfg, records, short))
    ensures r.Success? ==> r.value == ComputeShape(cfg, records, short)
    ensures cfg.paddingConstant >= cfg.segmDownsamplingRate ==> r == CopyLoop(ComputeShape(cfg, records, short))
  {
    if cfg.paddingConstant < cfg.segmDownsamplingRate then Failure(PaddingBelowRate)
    else CopyLoop(ComputeShape(cfg, records, short))
  }

  /** The guard passes, yet the label does not fit: with padding constant 3
      and rate 2, a 3x3 sample gets a 3x3 canvas and a 1x1 label canvas, but
      its label is padded to 4x4 and downsampled to 2x2. */
  lemma GuardAdmitsOverflow()
    ensures var cfg := Config([3], 3, 3, 2);
            var records := [Record("a.jpg", "a.png", 3, 3)];
            && cfg.paddingConstant >= cfg.segmDownsamplingRate
            && LayoutAsWritten(cfg, records, 3) == Failure(LabelOverflow)
  {
    var cfg := Config([3], 3, 3, 2);
    var records := [Record("a.jpg", "a.png", 3, 3)];
    var s := ComputeShape(cfg, records, 3);
    assert ScaledSize(3, 3, 3, 3) == (3, 3);
    assert s.sampleSizes[0] == (3, 3);
    assert MaxOf(Heights(s.sampleSizes)) == 3;
    assert s.height == 3;
    assert s.labelHeight == 1;
    assert s.labelSizes[0].0 == DownsampledExtent(3, 2) == 2;
    assert Resizable(s, 0) && !LabelFits(s, 0);
    assert FirstBad(s, 0) == 0;
  }

  /** A very thin sample scales to a zero edge: a 1x30 record with short
      size 3 and maximum size 10 gets the scale 1/3 and the size 0x10. */
  lemma ThinSampleIsNotResizable()
    ensures LayoutAsWritten(Config([3], 10, 2, 1), [Record("a.jpg", "a.png", 1, 30)], 3) == Failure(EmptyResize)
  {
    var cfg := Config([3], 10, 2, 1);
    var records := [Record("a.jpg", "a.png", 1, 30)];
    var s := ComputeShape(cfg, records, 3);
    assert Min(1, 30) == 1 && Max(1, 30) == 30;
    assert Scale(1, 30, 3, 10) == Ratio(10, 30);
    assert FloorMul(1, Ratio(10, 30)) == 0;
    assert s.sampleSizes[0] == ScaledSize(1, 30, 3, 10);
    assert !Resizable(s, 0);
    assert FirstBad(s, 0) == 0;
  }

  /** When the rate divides the padding constant, every downsampled label
      fits its slot of the label canvas. */
  lemma LabelsFitWhenRateDivides(cfg: Config, records: seq<Record>, short: int)
    requires ValidConfig(cfg) && |records| >= 1 && Measurable(records) && short >= 0
    requires cfg.paddingConstant % cfg.segmDownsamplingRate == 0
    ensures LabelsFit(ComputeShape(cfg, records, short))
  {
    var p, d := cfg.paddingConstant, cfg.segmDownsamplingRate;
    var s := ComputeShape(cfg, records, short);
    forall i | 0 <= i < |records|
      ensures LabelFits(s, i)
    {
      DownsampledFitsWhenRateDividesPadding(s.sampleSizes[i].0, s.height, p, d);
      DownsampledFitsWhenRateDividesPadding(s.sampleSizes[i].1, s.width, p, d);
    }
  }

  /** The batch shape with the guard the code evidently needs: the rate must
      divide the padding constant. Then every label fits its slot, so only a
      zero-sized resize can still stop the request. */
  function Layout(cfg: Config, records: seq<Record>, short: int): (r: Result<Shape, LayoutError>)
    requires ValidConfig(cfg) && |records| >= 1 && Measurable(records) && short >= 0
    ensures r == Failure(RateNotDivisor) <==> cfg.paddingConstant % cfg.segmDownsamplingRate != 0
    ensures r.Success? <==>
              cfg.paddingConstant % cfg.segmDownsamplingRate == 0 && AllResizable(ComputeShape(cfg, records, short))
    ensures r.Success? ==> LabelsFit(r.value) && r.value == ComputeShape(cfg, records, short)
  {
    var p, d := cfg.paddingConstant, cfg.segmDownsamplingRate;
    if p % d != 0 then Failure(RateNotDivisor)
    else
      var s := ComputeShape(cfg, records, short);
      LabelsFitWhenRateDivides(cfg, records, short);
      if !AllResizable(s) then Failure(EmptyResize) else Success(s)
  }

  /** Whenever the corrected guard passes, the code as written gives the
      same answer: the correction only turns a late copy failure into an
      early configuration error. */
  lemma LayoutAgreesWhenRateDivides(cfg: Config, records: seq<Record>, short: int)
    requires ValidConfig(cfg) && |records| >= 1 && Measurable(records) && short >= 0
    requires cfg.paddingConstant % cfg.segmDownsamplingRate == 0
    ensures LayoutAsWritten(cfg, records, short) == Layout(cfg, records, short)
  {
    var p, d := cfg.paddingConstant, cfg.segmDownsamplingRate;
    var b := p / d;
    assert p == b * d;
    MulLeCancel(1, b, d);
    LabelsFitWhenRateDivides(cfg, records, short);
    var s := ComputeShape(cfg, records, short);
    var k := FirstBad(s, 0);
    if k < |records| {
      assert LabelFits(s, k);
    }
  }

  /** A shape the code as written accepts has canvases that are multiples
      of the padding constant, hold every resized sample (each with positive
      edges) and hold every downsampled label. */
  lemma AcceptedShape(cfg: Config, records: seq<Record>, short: int)
    requires ValidConfig(cfg) && |records| >= 1 && Measurable(records) && short >= 0
    requires LayoutAsWritten(cfg, records, short).Success?
    ensures var s := LayoutAsWritten(cfg, records, short).value;
            && LabelsFit(s)
            && |s.sampleSizes| == |records|
            && s.height % cfg.paddingConstant == 0 && s.width % cfg.paddingConstant == 0
            && (forall i :: 0 <= i < |records| ==>
                  s.sampleSizes[i] == ScaledSize(records[i].height, records[i].width, short, cfg.imgMaxSize)
                  && 1 <= s.sampleSizes[i].0 <= s.height && 1 <= s.sampleSizes[i].1 <= s.width)
  {
    var s := ComputeShape(cfg, records, short);
    assert LayoutAsWritten(cfg, records, short).value == s;
    assert AllResizable(s);
    forall i | 0 <= i < |records|
      ensures s.sampleSizes[i] == ScaledSize(records[i].height, records[i].width, short, cfg.imgMaxSize)
      ensures 1 <= s.sampleSizes[i].0 <= s.height && 1 <= s.sampleSizes[i].1 <= s.width
    {
      assert Resizable(s, i);
    }
  }

  /** With the corrected guard satisfied, the code as written only fails on
      a zero-sized resize. */
  lemma AcceptedWhenRateDivides(cfg: Config, records: seq<Record>, short: int)
    requires ValidConfig(cfg) && |records| >= 1 && Measurable(records) && short >= 0
    requires cfg.paddingConstant % cfg.segmDownsamplingRate == 0
    requires AllResizable(ComputeShape(cfg, records, short))
    ensures LayoutAsWritten(cfg, records, short).Success?
  {
    LayoutAgreesWhenRateDivides(cfg, records, short);
  }

  // ---------------------------------------------------------------------
  // One training request

  /** Every record the sampler holds, in its list or its buckets, has a size. */
  predicate Healthy(st: Sampler.State) {
    Measurable(st.samples) && Measurable(st.tall) && Measurable(st.wide)
  }

  lemma MeasurableFrom(rs: seq<Record>, source: seq<Record>)
    requires Measurable(source)
    requires forall i :: 0 <= i < |rs| ==> rs[i] in source
    ensures Measurable(rs)
  {
  }

  lemma MeasurablePermuted(rs: seq<Record>, source: seq<Record>)
    requires Measurable(source) && multiset(rs) == multiset(source)
    ensures Measurable(rs)
  {
    forall i | 0 <= i < |rs|
      ensures rs[i] in source
    {
      assert rs[i] in multiset(rs);
    }
  }

  lemma MeasurableConcat(a: seq<Record>, b: seq<Record>)
    requires Measurable(a) && Measurable(b)
    ensures Measurable(a + b)
  {
  }

  /** The sampler half of `TrainDataset.__getitem__`: the lazy first
      shuffle, then one sub-batch drawn from the shuffled state, reading
      `pulled` from its list. Every record drawn has a size. */
  method DrawBatch(st: Sampler.State, index: int, batchSize: nat,
                   seeded: (seq<Record>, int) -> seq<Record>, shuffle: Sampler.Shuffle)
    returns (records: seq<Record>, next: Sampler.State, pulled: seq<Record>)
    requires Sampler.Valid(st) && Sampler.Sorted(st) && Healthy(st)
    requires batchSize >= 1 && |st.tall| < batchSize && |st.wide| < batchSize
    ensures Sampler.SubBatch(Sampler.Begin(st, index, seeded), batchSize, records, next, pulled, shuffle)
    ensures Measurable(records) && Healthy(next) && next.shuffled
    ensures multiset(next.samples) == multiset(st.samples)
  {
    var started := Sampler.Begin(st, index, seeded);
    MeasurablePermuted(started.samples, st.samples);
    records, next, pulled := Sampler.GetSubBatch(started, batchSize, shuffle);
    MeasurableFrom(pulled, started.samples);
    Sampler.FilterFrom(pulled);
    MeasurableFrom(Sampler.Talls(pulled), pulled);
    MeasurableFrom(Sampler.Wides(pulled), pulled);
    MeasurableConcat(started.tall, Sampler.Talls(pulled));
    MeasurableConcat(started.wide, Sampler.Wides(pulled));
    MeasurablePermuted(next.samples, started.samples);
  }

  /** `TrainDataset.__getitem__` up to the tensors: the lazy first shuffle,
      one sub-batch from the sampler, and the batch shape the code as
      written computes for the short size drawn from `imgSizes`. Every batch
      has `batchSize` records of one orientation; an accepted shape has
      canvases that are multiples of the padding constant and hold every
      resized sample and every downsampled label. */
  method GetItem(st: Sampler.State, index: int, cfg: Config, batchSize: nat, short: int,
                 seeded: (seq<Record>, int) -> seq<Record>, shuffle: Sampler.Shuffle)
    returns (records: seq<Record>, shape: Result<Shape, LayoutError>, next: Sampler.State, pulled: seq<Record>)
    requires Sampler.Valid(st) && Sampler.Sorted(st) && Healthy(st)
    requires ValidConfig(cfg) && short in cfg.imgSizes
    requires batchSize >= 1 && |st.tall| < batchSize && |st.wide| < batchSize
    // the records are the sub-batch the sampler draws after the lazy first shuffle
    ensures Sampler.SubBatch(Sampler.Begin(st, index, seeded), batchSize, records, next, pulled, shuffle)
    ensures Measurable(records) && Healthy(next) && next.shuffled
    ensures multiset(next.samples) == multiset(st.samples)
    // the shape is the one the code as written computes for the drawn records
    ensures shape == LayoutAsWritten(cfg, records, short)
    ensures RequestShape(cfg, records, short, shape)
  {
    records, next, pulled := DrawBatch(st, index, batchSize, seeded, shuffle);
    shape := LayoutAsWritten(cfg, records, short);
    RequestShapeHolds(cfg, records, short);
  }

  /** What a request's shape means for its records: the assertion fails
      exactly on a padding constant below the rate; an accepted shape has
      canvases that are multiples of the padding constant holding every
      label and every sample at its record's scaled size; and with the
      rate dividing the padding constant, only a zero-sized resize fails. */
  ghost predicate RequestShape(cfg: Config, records: seq<Record>, short: int, shape: Result<Shape, LayoutError>)
    requires ValidConfig(cfg) && |records| >= 1 && Measurable(records) && short >= 0
  {
    && (shape == Failure(PaddingBelowRate) <==> cfg.paddingConstant < cfg.segmDownsamplingRate)
    && (shape.Success? ==> shape.value == ComputeShape(cfg, records, short) && LabelsFit(shape.value))
    && (shape.Success? ==>
          var s := shape.value;
          && |s.sampleSizes| == |records|
          && s.height % cfg.paddingConstant == 0 && s.width % cfg.paddingConstant == 0
          && (forall i :: 0 <= i < |records| ==>
                s.sampleSizes[i] == ScaledSize(records[i].height, records[i].width, short, cfg.imgMaxSize)
                && 1 <= s.sampleSizes[i].0 <= s.height && 1 <= s.sampleSizes[i].1 <= s.width))
    && ((cfg.paddingConstant % cfg.segmDownsamplingRate == 0 && AllResizable(ComputeShape(cfg, records, short)))
          ==> shape.Success?)
  }

  lemma RequestShapeHolds(cfg: Config, records: seq<Record>, short: int)
    requires ValidConfig(cfg) && |records| >= 1 && Measurable(records) && short >= 0
    ensures RequestShape(cfg, records, short, LayoutAsWritten(cfg, records, short))
  {
    if LayoutAsWritten(cfg, records, short).Success? {
      AcceptedShape(cfg, records, short);
    }
    if cfg.paddingConstant % cfg.segmDownsamplingRate == 0 && AllResizable(ComputeShape(cfg, records, short)) {
      AcceptedWhenRateDivides(cfg, records, short);
    }
  }
}

=== FILE: wrappers.dfy ===
/** Result type for the error paths of the model (the `assert` statements
    of the dataset code become `Failure` values). */
module Wrappers {

  datatype Result<+R, +E> = Success(value: R) | Failure(error: E)
}
